=== FILE: README.md ===
# FastCGI client of edp-webserver, in Dafny

This project models the FastCGI client that edp-webserver uses to hand
requests to a FastCGI responder such as php-fpm, and proves properties of
that model. Two files make up the modelled core:

- `lib/util/fastcgi.js`. It finds the HTTP header block in the responder's
  output (`getHeader`) and folds the inbound records into a reply
  (`parser.onRecord`). It plans the outbound records of one request
  (`send`), and derives CGI meta-variables from the request headers
  (`makeParams`).
- `lib/handlers/fastcgi.js`. It builds the twelve fixed CGI parameters and
  passes the request body along. It maps the reply to the response status
  and content.

Module layout:

| module | file | covers |
|---|---|---|
| `Wrappers` | `wrappers.dfy` | `Option` and `Result` |
| `Text` | `text.dfy` | the JavaScript string operations the code relies on: `indexOf`, `split`/`join`, `trim`, `slice`, ASCII case mapping |
| `Protocol` | `protocol.dfy` | record types, the FastCGI constants used, name/value pairs |
| `ResponseHeader` | `response_header.dfy` | `getHeader` and its header-line reducer |
| `ResponseAssembler` | `response_assembler.dfy` | the `onRecord` state machine, as a fold over records |
| `RequestPlan` | `request_plan.dfy` | the records `send` writes, as a list of frames |
| `MetaVariables` | `meta_variables.dfy` | `makeParams` |
| `Handler` | `handler.dfy` | the request handler |
| `Scenarios`, `MetaExamples`, `HandlerExamples` | the remaining files | worked examples on concrete inputs |

How the source is represented:

- A throw from `getHeader` is an error value. It stops the fold, and no
  callback follows.
- Each callback of the client is a `Reply` in the fold's trace. Its header
  part is either the parsed header object (`Parsed`) or the raw text passed
  in the headers slot when no header block was found (`RawText`).

In a few places the code does something other than its comments or the
usual FastCGI/CGI practice suggest. The model follows the code:

- `getHeader` does not wait for the blank line. The text before the first
  CRLFCRLF, or the whole buffer when there is none, is taken as the header
  block as soon as it is non-empty. So the result depends on how the
  responder's output is cut into records (`Scenarios.ChunkBoundaryMatters`).
- Output with no blank line at all is parsed as header lines, not passed on
  raw (`Scenarios.NoBlankLine`). Only output that is empty, or that starts
  with CRLFCRLF, reaches the raw fallback; a lone `Status` line throws.
- Every END_REQUEST record produces a callback, so a second one produces a
  second reply.
- In `makeParams`, only the first `-` of a header name becomes `_`. The
  `HTTP_` prefix is dropped whenever the name contains `CONTENT_` anywhere,
  not only at its start.
- Every record is written with request id 0 (lib/util/fastcgi.js:82), which
  section 3.3 of the FastCGI Specification 1.0 reserves for management
  records (`FCGI_NULL_REQUEST_ID`); `RequestPlan.OutFrame` keeps that id.
- The handler sends `CGI/1.1` under the name `GATEWAY_PROTOCOL`
  (lib/handlers/fastcgi.js:41), where section 4.1.4 of RFC 3875 names the
  variable `GATEWAY_INTERFACE`; `Handler.FixedNames` keeps that name.

## Model

| member | source | states |
|---|---|---|
| Text.IndexFrom | lib/util/fastcgi.js:247 | the result is the first occurrence of the pattern at or after the start index, and `None` exactly when there is none |
| Text.IndexOf | lib/util/fastcgi.js:247 | `indexOf`: a found index is an occurrence with none earlier, and `None` holds exactly when the text is free of the pattern |
| Text.OccursInPrefix | lib/util/fastcgi.js:34-35 | an occurrence inside a prefix is an occurrence in the whole text |
| Text.FirstSplitRoundTrip | lib/util/fastcgi.js:34-35 | the text before the first separator, the separator, and the text after it concatenate back to the input, and the part before contains no separator |
| Text.FirstOccurrence | lib/util/fastcgi.js:247 | an occurrence with none earlier is what `indexOf` finds |
| Text.NoneStartIn | lib/util/fastcgi.js:247 | no occurrence starts in a range that lacks the pattern's first character |
| Text.Split | lib/util/fastcgi.js:42-43 | `split`: at least one part, the parts joined with the separator give back the input, and no part contains the separator |
| Text.SplitFirst | lib/util/fastcgi.js:34-35 | the first part is the text before the first separator, a second part exists exactly when the separator does, and the other parts joined again give the text after the first separator |
| Text.TrimStart | lib/util/fastcgi.js:49 | the result is a suffix of the input, everything removed is white space, and the result does not start with white space |
| Text.TrimEnd | lib/util/fastcgi.js:49 | the result is a prefix of the input, everything removed is white space, and the result does not end with white space |
| Text.Trim | lib/util/fastcgi.js:49 | `trim`: the result is the piece of the input between a white-space prefix and a white-space suffix, and has no white space at either end |
| Text.TrimUnique | lib/util/fastcgi.js:49 | any piece of the text with only white space around it and none at its ends is what `trim` returns, so the contract of `Trim` determines its result |
| Text.Prefix | lib/util/fastcgi.js:49 | `slice(0, n)`: a prefix of the text, exactly `n` long when the text is at least that long, and the whole text when it is shorter |
| Text.ToLower | lib/util/fastcgi.js:48 | `toLowerCase` on ASCII: same length; each upper-case letter becomes its lower-case letter, every other character is kept, and no upper-case letter is left |
| Text.ToUpper | lib/util/fastcgi.js:246 | `toUpperCase` on ASCII: same length; each lower-case letter becomes its upper-case letter, every other character is kept, and no lower-case letter is left |
| ResponseHeader.ParseLine | lib/util/fastcgi.js:42-55 | one header line fails exactly when it is a bare `status` key with no colon; a status line sets the status to its first three trimmed characters; any other line maps its key to everything after the first colon, and nothing else changes |
| ResponseHeader.StatusKeyIgnoresCase | lib/util/fastcgi.js:48 | a key is the status key exactly when it is `status` with each letter in either case |
| ResponseHeader.ParseLines | lib/util/fastcgi.js:42-56 | the reduction over the lines; when it succeeds, the status is at most three characters and does not start with white space |
| ResponseHeader.ParseLinesFailsIff | lib/util/fastcgi.js:43-49 | the reduction fails exactly when some line is a bare `status` key |
| ResponseHeader.ParseLinesFailStep | lib/util/fastcgi.js:42-49 | the reduction of one more line fails exactly when the earlier lines fail or that line is a bare `status` key |
| ResponseHeader.ParseLinesKeys | lib/util/fastcgi.js:51-53 | a field is present exactly when some non-status line has that key |
| ResponseHeader.FieldsStep | lib/util/fastcgi.js:48-53 | one successful line adds its own key, unless it is a status key, and keeps every key already present |
| ResponseHeader.ParseLinesLastWins | lib/util/fastcgi.js:51-53 | a field's value comes from the last line with that key |
| ResponseHeader.ParseLinesHasStatus | lib/util/fastcgi.js:48-50 | a status is present exactly when some line has a status key |
| ResponseHeader.ParseLinesStatusLastWins | lib/util/fastcgi.js:48-50 | the status comes from the last status line |
| ResponseHeader.GetHeader | lib/util/fastcgi.js:32-62 | `null` exactly when the text before the first blank line is empty; a throw exactly when that text is non-empty and has a bare status line; otherwise the headers are the reduction of its lines, and `extra` is everything after the first blank line |
| ResponseHeader.NullIffEmptyHeaderText | lib/util/fastcgi.js:34-39 | `getHeader` gives `null` exactly for empty text or text that starts with CRLFCRLF |
| ResponseHeader.HeaderSplitRoundTrip | lib/util/fastcgi.js:34-57 | when headers are found, the header text, the blank line and `extra` concatenate back to the input |
| ResponseAssembler.OnRecord | lib/util/fastcgi.js:104-152 | records other than STDOUT and END_REQUEST change nothing; END_REQUEST replies with the parsed headers and body, or with the buffered text as raw headers and an empty body; STDOUT appends to the body once headers were found; before that it buffers, and as soon as the header text is non-empty the headers become the parse of its lines and the body restarts with `extra`; the step throws exactly when those lines contain a bare `status` key |
| ResponseAssembler.SingleRecordResponse | lib/util/fastcgi.js:104-152 | one STDOUT record followed by END_REQUEST gives the reply that `getHeader` of its text determines |
| ResponseAssembler.FeedAppend | lib/util/fastcgi.js:104-152 | folding two record sequences one after the other is folding their concatenation, with the replies concatenated |
| ResponseAssembler.OneReplyPerEnd | lib/util/fastcgi.js:133-151 | there is one reply per END_REQUEST record |
| ResponseAssembler.FoundHeadersAreStable | lib/util/fastcgi.js:107-130 | once headers are found, no record fails or changes them, the body grows by exactly the STDOUT text, and every later reply carries those headers |
| ResponseAssembler.UnfoundRepliesAreRaw | lib/util/fastcgi.js:138-144 | while no headers were found, the buffer is the STDOUT text so far and every reply is raw text with an empty body, where the raw text is the STDOUT output buffered up to that END record (it extends the starting buffer and is a prefix of all the STDOUT text) |
| ResponseAssembler.ReplyStatusWellFormed | lib/util/fastcgi.js:48-50 | every parsed reply's status is at most three characters with no leading white space |
| RequestPlan.StreamsAppend | lib/util/fastcgi.js:176-220 | the PARAMS and STDIN streams of records written one after another are the concatenations of their streams |
| RequestPlan.TerminatedAt | lib/util/fastcgi.js:196-216 | an empty record with no later record of its type closes that stream |
| RequestPlan.Opening | lib/util/fastcgi.js:181-199 | BEGIN_REQUEST with the responder role and keep-alive off, PARAMS carrying every parameter, and the empty PARAMS; all well framed, carrying exactly the parameters and no STDIN |
| RequestPlan.StdinRecords | lib/util/fastcgi.js:201-216 | a STDIN record carrying the load with its length only when the load is non-empty, then always the empty STDIN record; header fields fixed as in the source |
| RequestPlan.Send | lib/util/fastcgi.js:176-220 | the plan is BEGIN_REQUEST (responder role, keep-alive off, length 8), one PARAMS record carrying every parameter with length `getParamLength(params)`, an empty PARAMS, a STDIN record with the load and its length when the load is non-empty, and an empty STDIN; all with version 1, request id 0 and no padding; the PARAMS stream is the parameters, the STDIN stream is the load, and both streams are terminated |
| MetaVariables.ReplaceFirstHyphen | lib/util/fastcgi.js:246 | the first hyphen becomes an underscore and every other character is kept |
| MetaVariables.MetaVariableNameShape | lib/util/fastcgi.js:246-250 | the derived name is the header name upper-cased with its first hyphen made an underscore, prefixed with `HTTP_` exactly when that contains no `CONTENT_` |
| MetaVariables.MakeParams | lib/util/fastcgi.js:240-255 | the given parameters come first and are unchanged, then one parameter per header in order, with the derived name and the header's value |
| MetaExamples.ForwardedFor | lib/util/fastcgi.js:246-250 | `x-forwarded-for` becomes `HTTP_X_FORWARDED-FOR`: the second hyphen stays |
| MetaExamples.ForwardedForUpper | lib/util/fastcgi.js:246 | the upper-cased, hyphen-replaced form of `x-forwarded-for` |
| MetaExamples.HyphenSecond | lib/util/fastcgi.js:246 | a name whose second character is a hyphen, and whose first is not, has its first hyphen at index 1 |
| MetaExamples.ContentType | lib/util/fastcgi.js:246-250 | `content-type` becomes `CONTENT_TYPE` with no prefix |
| MetaExamples.ContentTypeUpper | lib/util/fastcgi.js:246 | the upper-cased, hyphen-replaced form of `content-type` |
| MetaExamples.ContentInTheMiddle | lib/util/fastcgi.js:247-250 | `x-content_id` becomes `X_CONTENT_ID`, losing the prefix because `CONTENT_` occurs in the middle |
| MetaExamples.ContentIdUpper | lib/util/fastcgi.js:246 | the upper-cased, hyphen-replaced form of `x-content_id` |
| Handler.LookupInPrefix | lib/handlers/fastcgi.js:28-44 | appended parameters do not change what a lookup finds in the parameters before them |
| Handler.LookupAt | lib/handlers/fastcgi.js:30-43 | a lookup finds the first parameter with a given name |
| Handler.FixedParams | lib/handlers/fastcgi.js:30-43 | twelve parameters whose names are the fixed names, in order |
| Handler.FixedNamesDistinct | lib/handlers/fastcgi.js:30-43 | the twelve fixed names are pairwise different |
| Handler.FixedLookup | lib/handlers/fastcgi.js:30-43 | looking up any of the twelve fixed names in the fixed parameters finds that name's own value |
| Handler.FixedParamsSeen | lib/handlers/fastcgi.js:22-43 | the five script variables hold the normalised script path, the query string defaults to empty, and the URI, method, remote address, document root, gateway protocol and server software are as in the request |
| Handler.SeenThroughSuffix | lib/handlers/fastcgi.js:28-44 | for a lookup that keeps the first parameter of a name, parameters appended later do not change what the fixed ones say |
| Handler.FixedNameShape | lib/handlers/fastcgi.js:31-42 | no fixed name starts with `H` or contains `CONTENT_` |
| Handler.DerivedNameIsNotFixed | lib/util/fastcgi.js:246-250 | a name `makeParams` derives from a header is never one of the twelve fixed names |
| Handler.BuildParams | lib/handlers/fastcgi.js:22-44 | the twelve fixed names first, then one derived parameter per request header; each fixed name occurs exactly once, at its own place, so a responder finds the intended value whether it keeps the first or the last of equal names; a lookup of each fixed name finds the value the handler intends |
| Handler.Respond | lib/handlers/fastcgi.js:50-55 | the status comes from the reply exactly when the headers were parsed and carry a non-empty status, otherwise it is 200; the content is the body |
| Handler.StatusCodesAreShort | lib/handlers/fastcgi.js:51 | whatever the responder sends, a status taken from its output is one to three characters and does not start with white space |
| Handler.Outcomes | lib/handlers/fastcgi.js:50-55 | succeeds exactly when the record fold succeeds; then one outcome per END_REQUEST record, each the mapping of the corresponding reply |
| Handler.Handle | lib/handlers/fastcgi.js:15-57 | the plan is exactly the records `send` writes for the built parameters and the request body (so each record's kind, version, request id, length and padding are those of `RequestPlan.Send`); four records, or five when there is a body; the STDIN stream is the request body and the PARAMS stream starts with the fixed parameter names in their order, each only at its own place, followed by one derived parameter per request header in order, and carries the fixed parameters' values; one outcome per END_REQUEST, each the mapping of the corresponding reply, unless `getHeader` throws |
| Scenarios.BlankAfterTwoLines | lib/util/fastcgi.js:34 | in two lines without CR followed by a blank line, the first blank line is the one right after the second line |
| Scenarios.BlankAt33 | lib/util/fastcgi.js:34 | the first blank line of the example response is at index 33 |
| Scenarios.SplitTwoLines | lib/util/fastcgi.js:42 | two lines without CR joined by a line break split back into exactly those two lines |
| Scenarios.TwoLines | lib/util/fastcgi.js:42 | the example header block splits into two lines |
| Scenarios.StatusLineSplit | lib/util/fastcgi.js:43-46 | the key and first value of `Status: 404 Not Found` |
| Scenarios.StatusValueTrimmed | lib/util/fastcgi.js:49 | ` 404 Not Found` trims and cuts to `404` |
| Scenarios.StatusLine | lib/util/fastcgi.js:48-50 | `Status: 404 Not Found` sets the status to `404` |
| Scenarios.StatusKey | lib/util/fastcgi.js:48 | `Status` compares equal to `status` after lower-casing |
| Scenarios.FooLine | lib/util/fastcgi.js:51-53 | `X-Foo: bar` maps `X-Foo` to ` bar`, keeping the space after the colon |
| Scenarios.NotFoundLines | lib/util/fastcgi.js:42-56 | the two example lines reduce to status `404` and the one field |
| Scenarios.NotFoundHeaders | lib/util/fastcgi.js:32-62 | `getHeader` of the example response gives those headers and `hello` as `extra` |
| Scenarios.NotFoundResponse | lib/util/fastcgi.js:104-152 | the example exchange replies once, with status `404`, field `X-Foo`, and body `hello` |
| Scenarios.OneFieldLine | lib/util/fastcgi.js:51-53 | `X: 1` maps `X` to ` 1` |
| Scenarios.EarlyBlock | lib/util/fastcgi.js:32-62 | a header block cut before its last CRLF parses with an extra empty field and an empty `extra` |
| Scenarios.WholeBlock | lib/util/fastcgi.js:32-62 | the same block in one piece parses to the single field and the body |
| Scenarios.FoundThenEnd | lib/util/fastcgi.js:107-144 | once headers are found, a STDOUT record and END_REQUEST reply with those headers and the body grown by that record's text |
| Scenarios.SplitDelivery | lib/util/fastcgi.js:107-130 | delivered in two pieces, the first STDOUT record alone becomes the header block |
| Scenarios.ChunkBoundaryMatters | lib/util/fastcgi.js:107-130 | the same output cut differently into records gives different replies |
| Scenarios.NoOutput | lib/util/fastcgi.js:138-144 | END_REQUEST with no output replies with empty raw headers and an empty body |
| Scenarios.SecondEndRepliesAgain | lib/util/fastcgi.js:133-151 | two END_REQUEST records give two replies |
| Scenarios.NoBlankLineHeader | lib/util/fastcgi.js:32-62 | a non-empty text without a colon or carriage return that is not the word `status` is one header name with an empty value and an empty `extra` |
| Scenarios.NotAValidResponse | lib/util/fastcgi.js:32-62 | `not-a-valid-response` is such a text |
| Scenarios.NoBlankLine | lib/util/fastcgi.js:107-151 | such output, sent as one STDOUT record, is parsed as a header block and not passed on raw |
| Scenarios.LeadingBlankLine | lib/util/fastcgi.js:107-144 | output starting with CRLFCRLF is never parsed and comes back raw with an empty body |
| Scenarios.BareStatusHeader | lib/util/fastcgi.js:43-49 | a bare `Status` line makes `getHeader` throw |
| Scenarios.BareStatusThrows | lib/util/fastcgi.js:104-125 | such output stops the exchange before any reply |
| HandlerExamples.NotFoundPage | lib/handlers/fastcgi.js:50-55 | the example exchange serves status `404` with content `hello` |
| HandlerExamples.LeadingBlankLineServesNothing | lib/handlers/fastcgi.js:50-55 | output starting with CRLFCRLF serves status 200 with empty content |

## Left out

- The `fastcgi-parser` package: the byte encoding of records and name/value pairs, and the inbound parser are not part of this model. Records are values: outbound frames in `RequestPlan`, inbound `Record`s in `ResponseAssembler`.
- `fastcgi.getParamLength` is not part of this model. `RequestPlan.Send` takes it as a function parameter.
- RequestPlan.Send: does not bound `contentLength` to 16 bits, because the encoder that would reject or truncate a larger length is not part of this model.
- Sockets, connection events, `setNoDelay`, `connection.end`, and the logging of errors (`onError`, `console.dir`, `sys.puts`) are I/O and are left out. The model fixes the order of the writes but not their timing.
- Options and `DEFAULTS` (port 9000, host `localhost`) only choose where to connect, so they are left out.
- `path.normalize`, the `query` of `url.parse` and `process.version` come from Node and are not part of this model. They are parameters (`Handler.HostFacts`): the script path is `normalize(documentRoot + pathname)` and the query string is `queryOf(url)`, or empty. `request.search` is read but never used.
- Case mapping is ASCII only. For the `status` comparison this is exact. For `toUpperCase` on non-ASCII header names it is an approximation.
- Strings are sequences of Unicode scalar values, while JavaScript strings are UTF-16 code units. So `trim().slice(0, 3)` on a status value that contains a character outside the Basic Multilingual Plane cuts at a different place in the model, and lone surrogates cannot be represented.
- Header objects are modelled as maps. JavaScript object quirks are left out: keys such as `__proto__`, and the enumeration order of integer-like keys.
- The `headers.length <= 0` guard in `makeParams` is left out. On a request's header object it is false unless a header is literally named `length`.
- `makeParams` mutates and returns the caller's array. The model returns a new sequence with the same contents.
- Handler.Respond: `u.extend(context.header, data.headers)` is left out. It copies the parsed fields, and on the raw fallback the characters of the text, onto the response headers. Only the status and content are modelled.
- `context.stop()` and `context.start()` are left out, and so is the fact that a second END_REQUEST restarts the context. The model gives one outcome per END_REQUEST.
- A throw from `getHeader` inside the record callback is modelled as the end of the exchange. What the event loop does with the exception is not modelled.

=== FILE: handler.dfy ===
/**
 * The request handler of lib/handlers/fastcgi.js: it builds the CGI
 * parameter list for a request, hands it and the request body to the
 * FastCGI client, and turns the client's reply into the response status
 * and content.
 */
module Handler {
  import opened Wrappers
  import opened Protocol
  import opened ResponseHeader
  import opened ResponseAssembler
  import opened RequestPlan
  import opened MetaVariables
  import opened Text

  /** The parts of the inbound request the handler reads. */
  datatype Request = Request(
    url: string, pathname: string, verb: string, remoteAddress: string,
    headers: seq<HttpHeader>, body: Option<seq<byte>>)

  /**
   * What the handler obtains from Node's libraries, taken as given:
   * `path.normalize`, the `query` of `url.parse` (`None` for null) and
   * `process.version`.
   */
  datatype HostFacts = HostFacts(
    normalize: string -> string, queryOf: string -> Option<string>, nodeVersion: string)

  /** `path.normalize(docRoot + targetPathName)`. */
  function ScriptFileName(req: Request, documentRoot: string, facts: HostFacts): string {
    facts.normalize(documentRoot + req.pathname)
  }

  /** The names of the parameters the handler always sends, in order. */
  const FixedNames: seq<string> := [
    "SCRIPT_FILENAME", "REMOTE_ADDR", "QUERY_STRING", "REQUEST_METHOD",
    "SCRIPT_NAME", "PATH_INFO", "DOCUMENT_URI", "REQUEST_URI",
    "DOCUMENT_ROOT", "PHP_SELF", "GATEWAY_PROTOCOL", "SERVER_SOFTWARE"
  ]

  /** The value of the first parameter called `name`. */
  function Lookup(ps: seq<Param>, name: string): Option<string>
    decreases |ps|
  {
    if |ps| == 0 then None
    else if ps[0].name == name then Some(ps[0].value)
    else Lookup(ps[1..], name)
  }

  /** A lookup that succeeds in a prefix is not disturbed by what follows. */
  lemma {:induction false} LookupInPrefix(ps: seq<Param>, more: seq<Param>, name: string)
    requires Lookup(ps, name).Some?
    ensures Lookup(ps + more, name) == Lookup(ps, name)
    decreases |ps|
  {
    assert (ps + more)[0] == ps[0];
    if ps[0].name != name {
      assert (ps + more)[1..] == ps[1..] + more;
      LookupInPrefix(ps[1..], more, name);
    }
  }

  /** `url.parse(targetURL).query || ''`. */
  function QueryString(req: Request, facts: HostFacts): string {
    var q := facts.queryOf(req.url);
    if q.Some? then q.value else ""
  }

  /** The explicit parameters, before any header-derived ones. */
  function FixedParams(req: Request, documentRoot: string, facts: HostFacts): (ps: seq<Param>)
    ensures |ps| == |FixedNames|
    ensures forall i :: 0 <= i < |ps| ==> ps[i].name == FixedNames[i]
  {
    var script := ScriptFileName(req, documentRoot, facts);
    [
      Param("SCRIPT_FILENAME", script),
      Param("REMOTE_ADDR", req.remoteAddress),
      Param("QUERY_STRING", QueryString(req, facts)),
      Param("REQUEST_METHOD", req.verb),
      Param("SCRIPT_NAME", script),
      Param("PATH_INFO", script),
      Param("DOCUMENT_URI", script),
      Param("REQUEST_URI", req.url),
      Param("DOCUMENT_ROOT", documentRoot),
      Param("PHP_SELF", script),
      Param("GATEWAY_PROTOCOL", "CGI/1.1"),
      Param("SERVER_SOFTWARE", "node/" + facts.nodeVersion)
    ]
  }

  /**
   * What a responder reading the explicit parameters sees: the five script
   * variables agree on the normalised path, the query string defaults to
   * empty, and the request URI, method and protocol are passed through.
   */
  ghost predicate SeesRequest(ps: seq<Param>, req: Request, documentRoot: string, facts: HostFacts) {
    && Lookup(ps, "SCRIPT_FILENAME") == Some(ScriptFileName(req, documentRoot, facts))
    && Lookup(ps, "SCRIPT_NAME") == Some(ScriptFileName(req, documentRoot, facts))
    && Lookup(ps, "PATH_INFO") == Some(ScriptFileName(req, documentRoot, facts))
    && Lookup(ps, "DOCUMENT_URI") == Some(ScriptFileName(req, documentRoot, facts))
    && Lookup(ps, "PHP_SELF") == Some(ScriptFileName(req, documentRoot, facts))
    && Lookup(ps, "QUERY_STRING") == Some(QueryString(req, facts))
    && Lookup(ps, "REQUEST_URI") == Some(req.url)
    && Lookup(ps, "REQUEST_METHOD") == Some(req.verb)
    && Lookup(ps, "REMOTE_ADDR") == Some(req.remoteAddress)
    && Lookup(ps, "DOCUMENT_ROOT") == Some(documentRoot)
    && Lookup(ps, "GATEWAY_PROTOCOL") == Some("CGI/1.1")
    && Lookup(ps, "SERVER_SOFTWARE") == Some("node/" + facts.nodeVersion)
  }

  /** The first parameter with a name that no earlier one has is what a lookup finds. */
  lemma {:induction false} LookupAt(ps: seq<Param>, i: nat)
    requires i < |ps|
    requires forall j :: 0 <= j < i ==> ps[j].name != ps[i].name
    ensures Lookup(ps, ps[i].name) == Some(ps[i].value)
    decreases i
  {
    if i > 0 {
      assert ps[1..][i - 1] == ps[i];
      LookupAt(ps[1..], i - 1);
    }
  }

  lemma FixedNamesDistinct()
    ensures forall i, j :: 0 <= i < j < |FixedNames| ==> FixedNames[i] != FixedNames[j]
  {
    assert FixedNames[0][1] != FixedNames[11][1];
    assert FixedNames[1][0] != FixedNames[4][0];
    assert FixedNames[1][2] != FixedNames[7][2];
    assert FixedNames[4][0] != FixedNames[7][0];
    assert FixedNames[2][0] != FixedNames[6][0];
  }

  /** Each fixed name finds its own entry. */
  lemma FixedLookup(req: Request, documentRoot: string, facts: HostFacts, k: nat)
    requires k < |FixedNames|
    ensures Lookup(FixedParams(req, documentRoot, facts), FixedNames[k]) == Some(FixedParams(req, documentRoot, facts)[k].value)
  {
    FixedNamesDistinct();
    LookupAt(FixedParams(req, documentRoot, facts), k);
  }

  /** A name without `C` does not contain `CONTENT_`. */
  lemma NoC(name: string)
    requires |name| > 0 && name[0] != 'H' && 'C' !in name
    ensures name[0] != 'H' && Free(name, "CONTENT_")
  {
    CharAbsent(name, "CONTENT_");
  }

  /** A name whose only `C` is not followed by the rest of `CONTENT_` does not contain it. */
  lemma OneC(name: string, c: nat)
    requires c < |name| && name[0] != 'H' && 'C' !in name[..c] && 'C' !in name[c + 1..]
    requires c + 8 <= |name| ==> name[c + 1] != 'O'
    ensures name[0] != 'H' && Free(name, "CONTENT_")
  {
    assert name[0..c] == name[..c] && name[c + 1..|name|] == name[c + 1..];
    NoneStartIn(name, "CONTENT_", 0, c);
    NoneStartIn(name, "CONTENT_", c + 1, |name|);
    if c + 8 <= |name| {
      MismatchAt(name, "CONTENT_", c, 1);
    }
  }

  /** No fixed name starts with `H` or contains `CONTENT_`. */
  lemma FixedNameShape(k: nat)
    requires k < |FixedNames|
    ensures FixedNames[k][0] != 'H' && Free(FixedNames[k], "CONTENT_")
  {
    if k < 4 {
      FixedNameShape0To3(k);
    } else if k < 8 {
      FixedNameShape4To7(k);
    } else {
      FixedNameShape8To11(k);
    }
  }

  /** `FixedNameShape` for the first four names. */
  lemma FixedNameShape0To3(k: nat)
    requires 0 <= k < 4
    ensures FixedNames[k][0] != 'H' && Free(FixedNames[k], "CONTENT_")
  {
    if k == 0 {
      OneC(FixedNames[0], 1);
    } else if k == 1 {
      NoC(FixedNames[1]);
    } else if k == 2 {
      NoC(FixedNames[2]);
    } else {
      NoC(FixedNames[3]);
    }
  }

  /** `FixedNameShape` for the second four names. */
  lemma FixedNameShape4To7(k: nat)
    requires 4 <= k < 8
    ensures FixedNames[k][0] != 'H' && Free(FixedNames[k], "CONTENT_")
  {
    if k == 4 {
      OneC(FixedNames[4], 1);
    } else if k == 5 {
      NoC(FixedNames[5]);
    } else if k == 6 {
      OneC(FixedNames[6], 2);
    } else {
      NoC(FixedNames[7]);
    }
  }

  /** `FixedNameShape` for the last four names. */
  lemma FixedNameShape8To11(k: nat)
    requires 8 <= k < 12
    ensures FixedNames[k][0] != 'H' && Free(FixedNames[k], "CONTENT_")
  {
    if k == 8 {
      OneC(FixedNames[8], 2);
    } else if k == 9 {
      NoC(FixedNames[9]);
    } else if k == 10 {
      OneC(FixedNames[10], 13);
    } else {
      NoC(FixedNames[11]);
    }
  }

  /**
   * A header-derived name is never one of the fixed names: it either starts
   * with `HTTP_` or contains `CONTENT_`, and no fixed name does either.
   */
  lemma DerivedNameIsNotFixed(header: string, k: nat)
    requires k < |FixedNames|
    ensures MetaVariableName(header) != FixedNames[k]
  {
    var name := MetaVariableName(header);
    MetaVariableNameShape(header);
    FixedNameShape(k);
    assert |name| == |header| + 5 ==> name[0] == name[..5][0] == 'H';
    assert |name| == |header| ==> name[|name| - |header|..] == name;
  }

  lemma FixedParamsSeen(req: Request, documentRoot: string, facts: HostFacts)
    ensures SeesRequest(FixedParams(req, documentRoot, facts), req, documentRoot, facts)
  {
    FixedLookup(req, documentRoot, facts, 0);
    FixedLookup(req, documentRoot, facts, 1);
    FixedLookup(req, documentRoot, facts, 2);
    FixedLookup(req, documentRoot, facts, 3);
    FixedLookup(req, documentRoot, facts, 4);
    FixedLookup(req, documentRoot, facts, 5);
    FixedLookup(req, documentRoot, facts, 6);
    FixedLookup(req, documentRoot, facts, 7);
    FixedLookup(req, documentRoot, facts, 8);
    FixedLookup(req, documentRoot, facts, 9);
    FixedLookup(req, documentRoot, facts, 10);
    FixedLookup(req, documentRoot, facts, 11);
  }

  lemma SeenThroughSuffix(ps: seq<Param>, more: seq<Param>, req: Request, documentRoot: string, facts: HostFacts)
    requires SeesRequest(ps, req, documentRoot, facts)
    ensures SeesRequest(ps + more, req, documentRoot, facts)
  {
    LookupInPrefix(ps, more, "SCRIPT_FILENAME");
    LookupInPrefix(ps, more, "SCRIPT_NAME");
    LookupInPrefix(ps, more, "PATH_INFO");
    LookupInPrefix(ps, more, "DOCUMENT_URI");
    LookupInPrefix(ps, more, "PHP_SELF");
    LookupInPrefix(ps, more, "QUERY_STRING");
    LookupInPrefix(ps, more, "REQUEST_URI");
    LookupInPrefix(ps, more, "REQUEST_METHOD");
    LookupInPrefix(ps, more, "REMOTE_ADDR");
    LookupInPrefix(ps, more, "DOCUMENT_ROOT");
    LookupInPrefix(ps, more, "GATEWAY_PROTOCOL");
    LookupInPrefix(ps, more, "SERVER_SOFTWARE");
  }

  /**
   * The parameter list of the handler: the twelve explicit parameters in
   * their fixed order, then one per request header.
   */
  method BuildParams(req: Request, documentRoot: string, facts: HostFacts) returns (params: seq<Param>)
    ensures |params| == |FixedNames| + |req.headers|
    ensures forall i :: 0 <= i < |FixedNames| ==> params[i].name == FixedNames[i]
    ensures forall i :: 0 <= i < |req.headers| ==>
              params[|FixedNames| + i] == Param(MetaVariableName(req.headers[i].name), req.headers[i].value)
    // Each fixed name occurs once, at its own place, so a responder finds the
    // intended value whether it keeps the first or the last of equal names.
    ensures forall k, i :: 0 <= k < |FixedNames| && 0 <= i < |params| && params[i].name == FixedNames[k] ==> i == k
    ensures SeesRequest(params, req, documentRoot, facts)
  {
    var fixed := FixedParams(req, documentRoot, facts);
    params := MakeParams(req.headers, fixed);
    FixedNamesDistinct();
    forall i, k | |FixedNames| <= i < |params| && 0 <= k < |FixedNames|
      ensures params[i].name != FixedNames[k]
    {
      DerivedNameIsNotFixed(req.headers[i - |FixedNames|].name, k);
    }
    FixedParamsSeen(req, documentRoot, facts);
    var more := params[|fixed|..];
    assert params == fixed + more;
    SeenThroughSuffix(fixed, more, req, documentRoot, facts);
  }

  /** The response status: the parsed status when set and non-empty, otherwise 200. */
  datatype Status = FromHeader(code: string) | DefaultOk

  /** What the handler puts on the context. */
  datatype Outcome = Outcome(status: Status, content: string)

  /** The completion callback: `data.headers.status || 200`, and the body as the content. */
  function Respond(reply: Reply): (r: Outcome)
    ensures r.content == reply.body
    ensures r.status.FromHeader? <==>
              reply.headers.Parsed? && reply.headers.fields.status.Some? && reply.headers.fields.status.value != ""
    ensures r.status.FromHeader? ==> reply.headers.fields.status == Some(r.status.code)
  {
    match reply.headers
    case RawText(_) => Outcome(DefaultOk, reply.body)
    case Parsed(h) =>
      if h.status.Some? && h.status.value != "" then Outcome(FromHeader(h.status.value), reply.body)
      else Outcome(DefaultOk, reply.body)
  }

  /**
   * Whatever the responder sends, a status taken from its output is one to
   * three characters and does not start with white space.
   */
  lemma StatusCodesAreShort(rs: seq<Record>)
    requires Feed(Initial, rs).Success?
    ensures forall k :: 0 <= k < |Feed(Initial, rs).value.replies| ==>
              var o := Respond(Feed(Initial, rs).value.replies[k]);
              o.status.FromHeader? ==> 1 <= |o.status.code| <= 3 && !IsWhiteSpace(o.status.code[0])
  {
    ReplyStatusWellFormed(Initial, rs);
  }

  /**
   * The outcomes of the records the responder sends back: one per
   * END_REQUEST, each the mapping of the corresponding reply, unless
   * `getHeader` throws.
   */
  function Outcomes(inbound: seq<Record>): (outcomes: Result<seq<Outcome>, AssembleError>)
    ensures outcomes.Success? <==> Feed(Initial, inbound).Success?
    ensures outcomes.Success? ==>
              && |outcomes.value| == |Feed(Initial, inbound).value.replies| == EndCount(inbound)
              && forall k :: 0 <= k < |outcomes.value| ==>
                   outcomes.value[k] == Respond(Feed(Initial, inbound).value.replies[k])
  {
    match Feed(Initial, inbound)
    case Failure(e) => Failure(e)
    case Success(t) =>
      OneReplyPerEnd(Initial, inbound);
      Success(seq(|t.replies|, k requires 0 <= k < |t.replies| => Respond(t.replies[k])))
  }

  /**
   * One request end to end: the records written for it, and what the
   * handler makes of the records the responder sends back.
   */
  method Handle(req: Request, documentRoot: string, facts: HostFacts, paramLength: seq<Param> -> nat,
                inbound: seq<Record>)
    returns (plan: seq<Frame>, outcomes: Result<seq<Outcome>, AssembleError>)
    ensures plan == Send(ParamsStream(plan), req.body, paramLength)
    ensures |plan| == if HasLoad(req.body) then 5 else 4
    ensures StdinStream(plan) == if req.body.Some? then req.body.value else []
    ensures |ParamsStream(plan)| == |FixedNames| + |req.headers|
    // The fixed parameters in their order, each name only at its own place,
    // then one derived parameter per request header.
    ensures forall i :: 0 <= i < |FixedNames| ==> ParamsStream(plan)[i].name == FixedNames[i]
    ensures forall i :: 0 <= i < |req.headers| ==>
              ParamsStream(plan)[|FixedNames| + i] == Param(MetaVariableName(req.headers[i].name), req.headers[i].value)
    ensures forall k, i :: 0 <= k < |FixedNames| && 0 <= i < |ParamsStream(plan)| && ParamsStream(plan)[i].name == FixedNames[k] ==> i == k
    ensures SeesRequest(ParamsStream(plan), req, documentRoot, facts)
    ensures outcomes == Outcomes(inbound)
  {
    var params := BuildParams(req, documentRoot, facts);
    plan := Send(params, req.body, paramLength);
    outcomes := Outcomes(inbound);
  }
}

=== FILE: handler_examples.dfy ===
/** What the handler makes of a few concrete responder outputs. */
module HandlerExamples {
  import opened Protocol
  import opened ResponseHeader
  import opened ResponseAssembler
  import opened Scenarios
  import opened Handler

  /** A `Status: 404` header line becomes the response status. */
  lemma NotFoundPage(rs: seq<Record>, text: string)
    requires text == "Status: 404 Not Found" + LineBreak + "X-Foo: bar" + Blank + "hello"
    requires rs == [Record(Stdout, text), Record(End, "")]
    ensures Feed(Initial, rs).Success? && |Feed(Initial, rs).value.replies| == 1
    ensures Respond(Feed(Initial, rs).value.replies[0]) == Outcome(FromHeader("404"), "hello")
  {
    NotFoundResponse(rs, text);
  }

  /**
   * Output that opens with the blank line is taken as raw text: status 200,
   * and the page is empty because the text went to the headers slot.
   */
  lemma LeadingBlankLineServesNothing(rs: seq<Record>, text: string)
    requires text == "\r\n\r\nhi"
    requires rs == [Record(Stdout, text), Record(End, "")]
    ensures Feed(Initial, rs).Success? && |Feed(Initial, rs).value.replies| == 1
    ensures Respond(Feed(Initial, rs).value.replies[0]) == Outcome(DefaultOk, "")
  {
    LeadingBlankLine(rs, text);
  }
}

=== FILE: meta_examples.dfy ===
/**
 * Worked header names for `makeParams`, including the two places where the
 * derivation departs from RFC 3875.
 */
module MetaExamples {
  import opened Wrappers
  import opened Text
  import opened MetaVariables

  /** `X-Forwarded-For` keeps its second hyphen. */
  lemma ForwardedFor(h: string)
    requires h == "x-forwarded-for"
    ensures MetaVariableName(h) == "HTTP_X_FORWARDED-FOR"
  {
    ForwardedForUpper(h);
    var u := ToUpper(ReplaceFirstHyphen(h));
    assert forall j :: 0 <= j < |u| ==> !OccursAt(u, "CONTENT_", j) by { NoneStartIn(u, "CONTENT_", 0, |u|); }
    assert Free(u, "CONTENT_");
    assert "HTTP_" + u == "HTTP_X_FORWARDED-FOR";
  }

  /** A name whose second character is its first hyphen. */
  lemma HyphenSecond(h: string)
    requires |h| >= 2 && h[0] != '-' && h[1] == '-'
    ensures IndexOf(h, "-") == Some(1)
  {
    OccursAtChar(h, '-', 1);
    assert !OccursAt(h, "-", 0) by { assert h[0..1] == [h[0]]; }
    FirstOccurrence(h, "-", 1);
  }

  lemma ForwardedForUpper(h: string)
    requires h == "x-forwarded-for"
    ensures ToUpper(ReplaceFirstHyphen(h)) == "X_FORWARDED-FOR"
  {
    HyphenSecond(h);
    var u := ToUpper(ReplaceFirstHyphen(h));
    assert u[0] == 'X' && u[1] == '_' && u[2] == 'F' && u[3] == 'O' && u[4] == 'R';
    assert u[5] == 'W' && u[6] == 'A' && u[7] == 'R' && u[8] == 'D' && u[9] == 'E';
    assert u[10] == 'D' && u[11] == '-' && u[12] == 'F' && u[13] == 'O' && u[14] == 'R';
    assert u == "X_FORWARDED-FOR";
  }

  /** `Content-Type` is passed without the `HTTP_` prefix. */
  lemma ContentType(h: string)
    requires h == "content-type"
    ensures MetaVariableName(h) == "CONTENT_TYPE"
  {
    ContentTypeUpper(h);
    var u := ToUpper(ReplaceFirstHyphen(h));
    assert OccursAt(u, "CONTENT_", 0) by { assert u[0..8] == "CONTENT_"; }
  }

  lemma ContentTypeUpper(h: string)
    requires h == "content-type"
    ensures ToUpper(ReplaceFirstHyphen(h)) == "CONTENT_TYPE"
  {
    assert forall j :: 0 <= j < 7 ==> !OccursAt(h, "-", j) by { NoneStartIn(h, "-", 0, 7); }
    OccursAtChar(h, '-', 7);
    FirstOccurrence(h, "-", 7);
    var u := ToUpper(ReplaceFirstHyphen(h));
    assert u[0] == 'C' && u[1] == 'O' && u[2] == 'N' && u[3] == 'T' && u[4] == 'E' && u[5] == 'N';
    assert u[6] == 'T' && u[7] == '_' && u[8] == 'T' && u[9] == 'Y' && u[10] == 'P' && u[11] == 'E';
    assert u == "CONTENT_TYPE";
  }

  /**
   * A name with `CONTENT_` in its middle also loses the prefix, where
   * RFC 3875 would give `HTTP_X_CONTENT_ID`.
   */
  lemma ContentInTheMiddle(h: string)
    requires h == "x-content_id"
    ensures MetaVariableName(h) == "X_CONTENT_ID"
  {
    ContentIdUpper(h);
    var u := ToUpper(ReplaceFirstHyphen(h));
    assert OccursAt(u, "CONTENT_", 2) by { assert u[2..10] == "CONTENT_"; }
  }

  lemma ContentIdUpper(h: string)
    requires h == "x-content_id"
    ensures ToUpper(ReplaceFirstHyphen(h)) == "X_CONTENT_ID"
  {
    HyphenSecond(h);
    var u := ToUpper(ReplaceFirstHyphen(h));
    assert u[0] == 'X' && u[1] == '_' && u[2] == 'C' && u[3] == 'O' && u[4] == 'N' && u[5] == 'T';
    assert u[6] == 'E' && u[7] == 'N' && u[8] == 'T' && u[9] == '_' && u[10] == 'I' && u[11] == 'D';
    assert u == "X_CONTENT_ID";
  }
}

=== FILE: meta_variables.dfy ===
/**
 * `makeParams` of lib/util/fastcgi.js: one CGI meta-variable per inbound
 * HTTP header, appended after the parameters built by the caller. The name
 * is derived roughly as in section 4.1.18 of RFC 3875, with two
 * differences the source has: only the first '-' becomes '_', and the
 * `HTTP_` prefix is left off whenever the name contains `CONTENT_`
 * anywhere, not only at its start.
 */
module MetaVariables {
  import opened Wrappers
  import opened Text
  import opened Protocol

  /** An inbound HTTP header, in the order the request object enumerates them. */
  datatype HttpHeader = HttpHeader(name: string, value: string)

  /** `s.replace(/-/, '_')`: the first hyphen only. */
  function ReplaceFirstHyphen(s: string): (r: string)
    ensures |r| == |s|
    ensures IndexOf(s, "-").None? ==> r == s
    ensures IndexOf(s, "-").Some? ==>
              var i := IndexOf(s, "-").value;
              r[i] == '_' && '-' !in s[..i] && forall j :: 0 <= j < |s| && j != i ==> r[j] == s[j]
  {
    match IndexOf(s, "-")
    case None => s
    case Some(i) =>
      forall j | 0 <= j < i
        ensures s[..i][j] != '-'
      {
        assert !OccursAt(s, "-", j);
        assert s[j..j + 1] == [s[j]];
      }
      s[i := '_']
  }

  /** The meta-variable name `makeParams` derives from a header name. */
  function MetaVariableName(header: string): string {
    var u := ToUpper(ReplaceFirstHyphen(header));
    if IndexOf(u, "CONTENT_").Some? then u else "HTTP_" + u
  }

  /**
   * The name is the header name upper-cased, its first hyphen made an
   * underscore, and prefixed with `HTTP_` exactly when that does not contain
   * `CONTENT_`.
   */
  lemma MetaVariableNameShape(header: string)
    ensures var name := MetaVariableName(header);
      && (|name| == |header| || |name| == |header| + 5)
      && (var u := name[|name| - |header|..];
          && (forall i :: 0 <= i < |header| ==>
                u[i] == if IndexOf(header, "-") == Some(i) then '_' else UpperChar(header[i]))
          && (|name| == |header| + 5 <==> IndexOf(u, "CONTENT_").None?))
      && (|name| == |header| + 5 ==> name[..5] == "HTTP_")
  {
  }

  /**
   * `makeParams(headers, params)`: the caller's parameters untouched,
   * followed by one parameter per header, in order, with the header's value
   * unchanged.
   */
  method MakeParams(headers: seq<HttpHeader>, params: seq<Param>) returns (all: seq<Param>)
    ensures |all| == |params| + |headers|
    ensures all[..|params|] == params
    ensures forall i :: 0 <= i < |headers| ==>
              all[|params| + i] == Param(MetaVariableName(headers[i].name), headers[i].value)
  {
    all := params;
    var k := 0;
    while k < |headers|
      invariant 0 <= k <= |headers|
      invariant |all| == |params| + k
      invariant all[..|params|] == params
      invariant forall i :: 0 <= i < k ==>
                  all[|params| + i] == Param(MetaVariableName(headers[i].name), headers[i].value)
    {
      all := all + [Param(MetaVariableName(headers[k].name), headers[k].value)];
      k := k + 1;
    }
  }
}

=== FILE: protocol.dfy ===
/**
 * Constants and shapes of the FastCGI protocol as the client uses them
 * (FastCGI Specification 1.0, section 8).
 */
module Protocol {

  newtype byte = x: int | 0 <= x < 256

  /**
   * Record types (their wire codes 1 to 11 belong to the record encoding);
   * the client writes Begin, Params and Stdin and reacts to Stdout and End.
   */
  datatype RecordType =
    | Begin | Abort | End | Params | Stdin | Stdout | Stderr | Data
    | GetValues | GetValuesResult | UnknownType

  /** FCGI_VERSION_1. */
  const Version1: nat := 1

  /** FCGI_RESPONDER, the only role the client asks for. */
  const Responder: nat := 1

  /** Flags of a begin-request body with keep-alive off (FCGI_KEEP_CONN clear). */
  const KeepAliveOff: nat := 0

  /** Size in bytes of the begin-request body: role (2), flags (1), reserved (5). */
  const BeginBodyLength: nat := 8

  /** One CGI meta-variable sent in the PARAMS stream. */
  datatype Param = Param(name: string, value: string)
}

=== FILE: request_plan.dfy ===
/**
 * The records `send` in lib/util/fastcgi.js writes for one request, in
 * order, in the record order of the Responder protocol of the FastCGI
 * Specification 1.0 (sections 5.1 to 5.3 and 6.2): a begin-request record,
 * the PARAMS stream closed by an empty PARAMS record, then the STDIN stream
 * closed by an empty STDIN record.
 */
module RequestPlan {
  import opened Wrappers
  import opened Protocol

  /** The header fields the client sets on each record it writes. */
  datatype RecordHeader = RecordHeader(
    version: nat, kind: RecordType, requestId: nat, contentLength: nat, paddingLength: nat)

  /** What follows a record header on the wire. */
  datatype Content =
    | BeginBody(role: nat, flags: nat)
    | ParamsBody(params: seq<Param>)
    | StdinBody(data: seq<byte>)
    | NoContent

  datatype Frame = Frame(header: RecordHeader, content: Content)

  /** `load && load.length`: a request body is present and non-empty. */
  predicate HasLoad(load: Option<seq<byte>>) {
    load.Some? && |load.value| > 0
  }

  /**
   * The byte length of a record's content. The encoded size of a parameter
   * list comes from the protocol library (`getParamLength`), passed in as
   * `paramLength`.
   */
  function ContentLength(c: Content, paramLength: seq<Param> -> nat): nat {
    match c
    case BeginBody(_, _) => BeginBodyLength
    case ParamsBody(ps) => paramLength(ps)
    case StdinBody(d) => |d|
    case NoContent => 0
  }

  function Kinds(plan: seq<Frame>): seq<RecordType> {
    seq(|plan|, k requires 0 <= k < |plan| => plan[k].header.kind)
  }

  /** The parameters carried by the PARAMS records, in order. */
  function ParamsStream(plan: seq<Frame>): seq<Param>
    decreases |plan|
  {
    if |plan| == 0 then []
    else (if plan[0].content.ParamsBody? then plan[0].content.params else []) + ParamsStream(plan[1..])
  }

  /** The bytes carried by the STDIN records, in order. */
  function StdinStream(plan: seq<Frame>): seq<byte>
    decreases |plan|
  {
    if |plan| == 0 then []
    else (if plan[0].content.StdinBody? then plan[0].content.data else []) + StdinStream(plan[1..])
  }

  /** The last record of stream `kind` is an empty one, which closes the stream. */
  ghost predicate Terminated(plan: seq<Frame>, kind: RecordType) {
    exists i :: 0 <= i < |plan| && plan[i].header.kind == kind
      && plan[i].header.contentLength == 0 && plan[i].content == NoContent
      && forall j :: i < j < |plan| ==> plan[j].header.kind != kind
  }

  /** Both streams of a plan are its first record's part followed by the rest's. */
  lemma StreamsCons(f: Frame, rest: seq<Frame>)
    ensures ParamsStream([f] + rest) == (if f.content.ParamsBody? then f.content.params else []) + ParamsStream(rest)
    ensures StdinStream([f] + rest) == (if f.content.StdinBody? then f.content.data else []) + StdinStream(rest)
  {
    assert ([f] + rest)[1..] == rest;
  }

  /** A record as `send` writes it: version 1, request id 0, no padding. */
  function OutFrame(kind: RecordType, contentLength: nat, content: Content): Frame {
    Frame(RecordHeader(Version1, kind, 0, contentLength, 0), content)
  }

  /** The STDIN part of `send`: the body in one record when there is one, then the closing empty record. */
  function StdinRecords(load: Option<seq<byte>>): (tail: seq<Frame>)
    ensures |tail| == if HasLoad(load) then 2 else 1
    ensures Kinds(tail) == (if HasLoad(load) then [Stdin] else []) + [Stdin]
    ensures HasLoad(load) ==> tail[0] == OutFrame(Stdin, |load.value|, StdinBody(load.value))
    ensures tail[|tail| - 1] == OutFrame(Stdin, 0, NoContent)
    ensures forall k :: 0 <= k < |tail| ==>
              && tail[k].header.version == Version1
              && tail[k].header.requestId == 0 && tail[k].header.paddingLength == 0
              && (tail[k].content.StdinBody? || tail[k].content.NoContent?)
              && tail[k].header.contentLength == (if tail[k].content.StdinBody? then |tail[k].content.data| else 0)
    ensures ParamsStream(tail) == []
    ensures StdinStream(tail) == if load.Some? then load.value else []
  {
    var inEnd := OutFrame(Stdin, 0, NoContent);
    var tail := if HasLoad(load) then [OutFrame(Stdin, |load.value|, StdinBody(load.value)), inEnd] else [inEnd];
    assert ParamsStream(tail) == [] && StdinStream(tail) == (if load.Some? then load.value else []) by {
      StreamsCons(inEnd, []);
      assert [inEnd] + [] == [inEnd];
      if HasLoad(load) {
        StreamsCons(tail[0], [inEnd]);
        assert tail == [tail[0]] + [inEnd];
        assert load.value + [] == load.value;
      } else if load.Some? {
        assert load.value == [];
      }
    }
    assert Kinds(tail) == (if HasLoad(load) then [Stdin] else []) + [Stdin] by {
      assert |Kinds(tail)| == |tail|;
      assert Kinds(tail)[|tail| - 1] == Stdin;
      if HasLoad(load) {
        assert Kinds(tail)[0] == Stdin;
      }
    }
    tail
  }

  lemma StdinFramed(load: Option<seq<byte>>, paramLength: seq<Param> -> nat)
    ensures WellFramed(StdinRecords(load), paramLength)
  {
  }

  /**
   * Every record is a version-1 record of request 0 without padding, whose
   * length field agrees with the content that follows it.
   */
  ghost predicate WellFramed(plan: seq<Frame>, paramLength: seq<Param> -> nat) {
    forall k :: 0 <= k < |plan| ==>
      && plan[k].header.version == Version1
      && plan[k].header.requestId == 0
      && plan[k].header.paddingLength == 0
      && plan[k].header.contentLength == ContentLength(plan[k].content, paramLength)
  }

  /** The streams of two plans written one after the other. */
  lemma {:induction false} StreamsAppend(a: seq<Frame>, b: seq<Frame>)
    ensures ParamsStream(a + b) == ParamsStream(a) + ParamsStream(b)
    ensures StdinStream(a + b) == StdinStream(a) + StdinStream(b)
    decreases |a|
  {
    if |a| == 0 {
      assert a + b == b;
    } else {
      assert a + b == [a[0]] + (a[1..] + b);
      assert a == [a[0]] + a[1..];
      StreamsCons(a[0], a[1..] + b);
      StreamsCons(a[0], a[1..]);
      StreamsAppend(a[1..], b);
    }
  }

  /** The first three records of `send`: BEGIN_REQUEST and the PARAMS stream. */
  function Opening(params: seq<Param>, paramLength: seq<Param> -> nat): (head: seq<Frame>)
    ensures Kinds(head) == [Begin, Params, Params]
    ensures head[0] == OutFrame(Begin, BeginBodyLength, BeginBody(Responder, KeepAliveOff))
    ensures head[1] == OutFrame(Params, paramLength(params), ParamsBody(params))
    ensures head[2] == OutFrame(Params, 0, NoContent)
    ensures WellFramed(head, paramLength)
    ensures ParamsStream(head) == params && StdinStream(head) == []
  {
    var begin := OutFrame(Begin, BeginBodyLength, BeginBody(Responder, KeepAliveOff));
    var ps := OutFrame(Params, paramLength(params), ParamsBody(params));
    var psEnd := OutFrame(Params, 0, NoContent);
    var head := [begin, ps, psEnd];
    assert ParamsStream(head) == params && StdinStream(head) == [] by {
      StreamsCons(psEnd, []);
      StreamsCons(ps, [psEnd]);
      StreamsCons(begin, [ps, psEnd]);
      assert head == [begin] + ([ps] + [psEnd]);
      assert params + [] == params;
    }
    head
  }

  lemma KindsAppend(a: seq<Frame>, b: seq<Frame>)
    ensures Kinds(a + b) == Kinds(a) + Kinds(b)
  {
    assert |Kinds(a + b)| == |Kinds(a) + Kinds(b)|;
    forall k | 0 <= k < |a + b| ensures Kinds(a + b)[k] == (Kinds(a) + Kinds(b))[k] {
      if k < |a| { assert (a + b)[k] == a[k]; } else { assert (a + b)[k] == b[k - |a|]; }
    }
  }

  lemma FramedAppend(a: seq<Frame>, b: seq<Frame>, paramLength: seq<Param> -> nat)
    requires WellFramed(a, paramLength) && WellFramed(b, paramLength)
    ensures WellFramed(a + b, paramLength)
  {
    forall k | 0 <= k < |a + b|
      ensures (a + b)[k] == if k < |a| then a[k] else b[k - |a|]
    {
    }
  }

  /** An empty record with no later record of its kind closes that stream. */
  lemma TerminatedAt(plan: seq<Frame>, kind: RecordType, i: nat)
    requires i < |plan| && plan[i].header.kind == kind
    requires plan[i].header.contentLength == 0 && plan[i].content == NoContent
    requires forall j :: i < j < |plan| ==> Kinds(plan)[j] != kind
    ensures Terminated(plan, kind)
  {
    forall j | i < j < |plan| ensures plan[j].header.kind != kind {
      assert Kinds(plan)[j] == plan[j].header.kind;
    }
  }

  /** The records `send` writes, in order. */
  function Send(params: seq<Param>, load: Option<seq<byte>>, paramLength: seq<Param> -> nat): (plan: seq<Frame>)
    ensures |plan| == if HasLoad(load) then 5 else 4
    ensures Kinds(plan) == [Begin, Params, Params] + (if HasLoad(load) then [Stdin] else []) + [Stdin]
    // Which record carries what: BEGIN_REQUEST, the parameters with their
    // encoded length, the empty PARAMS, the body with its length, the empty STDIN.
    ensures plan[0] == OutFrame(Begin, BeginBodyLength, BeginBody(Responder, KeepAliveOff))
    ensures plan[1] == OutFrame(Params, paramLength(params), ParamsBody(params))
    ensures plan[2] == OutFrame(Params, 0, NoContent)
    ensures HasLoad(load) ==> plan[3] == OutFrame(Stdin, |load.value|, StdinBody(load.value))
    ensures plan[|plan| - 1] == OutFrame(Stdin, 0, NoContent)
    ensures WellFramed(plan, paramLength)
    // The two streams carry exactly the parameters and the body, and both are closed.
    ensures ParamsStream(plan) == params
    ensures StdinStream(plan) == if load.Some? then load.value else []
    ensures Terminated(plan, Params) && Terminated(plan, Stdin)
  {
    var head := Opening(params, paramLength);
    var tail := StdinRecords(load);
    var plan := head + tail;
    assert ParamsStream(plan) == params && StdinStream(plan) == StdinStream(tail) by {
      StreamsAppend(head, tail);
      assert params + [] == params;
    }
    assert WellFramed(plan, paramLength) by {
      StdinFramed(load, paramLength);
      FramedAppend(head, tail, paramLength);
    }
    assert Kinds(plan) == [Begin, Params, Params] + Kinds(tail) by {
      KindsAppend(head, tail);
    }
    assert plan[0] == head[0] && plan[1] == head[1] && plan[2] == head[2];
    assert HasLoad(load) ==> plan[3] == tail[0];
    assert plan[|plan| - 1] == tail[|tail| - 1];
    assert Terminated(plan, Params) by {
      TerminatedAt(plan, Params, 2);
    }
    assert Terminated(plan, Stdin) by {
      TerminatedAt(plan, Stdin, |plan| - 1);
    }
    plan
  }
}

=== FILE: response_assembler.dfy ===
/**
 * The `parser.onRecord` handler of lib/util/fastcgi.js, as a fold over the
 * records the stream parser decodes. STDOUT text is accumulated until
 * `getHeader` accepts it; from then on STDOUT text is appended to the body;
 * every END_REQUEST record hands the caller a reply.
 */
module ResponseAssembler {
  import opened Wrappers
  import opened Text
  import opened Protocol
  import opened ResponseHeader

  /** A decoded inbound record: its type and its content as text. */
  datatype Record = Record(kind: RecordType, body: string)

  /**
   * The closure state: `headers` is the header object once found (the
   * source's `''` is `None`), `body` the accumulated text, which serves as
   * the header buffer until then.
   */
  datatype Assembly = Assembly(headers: Option<Headers>, body: string)

  const Initial := Assembly(None, "")

  /** What the callback receives as `data.headers`: the parsed object, or the raw text fallback. */
  datatype ReplyHeaders = Parsed(fields: Headers) | RawText(text: string)

  /** The second argument of the callback. */
  datatype Reply = Reply(headers: ReplyHeaders, body: string)

  /** The state after one record and the reply it produced, if any. */
  datatype Step = Step(next: Assembly, reply: Option<Reply>)

  /** One call of `onRecord`. */
  function OnRecord(s: Assembly, rec: Record): (r: Result<Step, AssembleError>)
    // Records other than STDOUT and END change nothing.
    ensures rec.kind != Stdout && rec.kind != End ==> r == Success(Step(s, None))
    // END leaves the state alone and replies: the headers and body once found, else the raw text and ''.
    ensures rec.kind == End && s.headers.Some? ==>
              r == Success(Step(s, Some(Reply(Parsed(s.headers.value), s.body))))
    ensures rec.kind == End && s.headers.None? ==>
              r == Success(Step(s, Some(Reply(RawText(s.body), ""))))
    // After the headers are found, STDOUT text goes to the body verbatim.
    ensures rec.kind == Stdout && s.headers.Some? ==>
              r == Success(Step(s.(body := s.body + rec.body), None))
    // Before that, the headers are found as soon as the buffer's text before the
    // first blank line is non-empty, and the body restarts from what follows it.
    ensures rec.kind == Stdout && s.headers.None? && HeaderText(s.body + rec.body) == "" ==>
              r == Success(Step(Assembly(None, s.body + rec.body), None))
    // The found headers are the parse of the header lines; a bare `Status` line among them throws.
    ensures rec.kind == Stdout && s.headers.None? && HeaderText(s.body + rec.body) != "" ==>
              var lines := ParseLines(Split(HeaderText(s.body + rec.body), LineBreak));
              && (r.Failure? <==> lines.Failure?)
              && (r.Success? ==>
                    && r.value.next.headers == Some(lines.value)
                    && r.value.next.body == AfterFirst(s.body + rec.body, Blank)
                    && r.value.reply.None?)
    ensures r.Failure? ==> rec.kind == Stdout && s.headers.None? && HeaderText(s.body + rec.body) != ""
  {
    match rec.kind
    case Stdout =>
      if s.headers.None? then
        var buffered := s.body + rec.body;
        match GetHeader(buffered)
        case Failure(e) => Failure(e)
        case Success(None) => Success(Step(Assembly(None, buffered), None))
        case Success(Some(found)) => Success(Step(Assembly(Some(found.headers), found.extra), None))
      else
        Success(Step(s.(body := s.body + rec.body), None))
    case End =>
      if s.headers.None? then Success(Step(s, Some(Reply(RawText(s.body), ""))))
      else Success(Step(s, Some(Reply(Parsed(s.headers.value), s.body))))
    case _ => Success(Step(s, None))
  }

  /** The final state and the replies handed to the callback, in order. */
  datatype Trace = Trace(final: Assembly, replies: seq<Reply>)

  function Replies(o: Option<Reply>): seq<Reply> {
    if o.Some? then [o.value] else []
  }

  /** Feeding records to `onRecord` one after another; a throw ends the exchange. */
  function Feed(s: Assembly, rs: seq<Record>): Result<Trace, AssembleError>
    decreases |rs|
  {
    if |rs| == 0 then Success(Trace(s, []))
    else
      match OnRecord(s, rs[0])
      case Failure(e) => Failure(e)
      case Success(step) =>
        match Feed(step.next, rs[1..])
        case Failure(e) => Failure(e)
        case Success(t) => Success(Trace(t.final, Replies(step.reply) + t.replies))
  }

  /** A record that does not reply leaves the trace of the records after it unchanged. */
  lemma FeedSilentStep(s: Assembly, rs: seq<Record>, next: Assembly, t: Trace)
    requires |rs| > 0 && OnRecord(s, rs[0]) == Success(Step(next, None))
    requires Feed(next, rs[1..]) == Success(t)
    ensures Feed(s, rs) == Success(t)
  {
    assert Replies(None) + t.replies == t.replies;
  }

  /** Feeding a single record is one call of `onRecord`. */
  lemma FeedOne(s: Assembly, rec: Record)
    ensures Feed(s, [rec]) ==
              match OnRecord(s, rec)
              case Failure(e) => Failure(e)
              case Success(step) => Success(Trace(step.next, Replies(step.reply)))
  {
    assert [rec][1..] == [];
    match OnRecord(s, rec)
    case Failure(e) =>
    case Success(step) => assert Replies(step.reply) + [] == Replies(step.reply);
  }

  /**
   * A response delivered as one STDOUT record and END_REQUEST: the reply is
   * `getHeader`'s header object and the text after the blank line, or, when
   * `getHeader` returns null, the raw text and an empty body.
   */
  lemma SingleRecordResponse(rs: seq<Record>, text: string)
    requires rs == [Record(Stdout, text), Record(End, "")]
    ensures Feed(Initial, rs) ==
              match GetHeader(text)
              case Failure(e) => Failure(e)
              case Success(None) => Success(Trace(Assembly(None, text), [Reply(RawText(text), "")]))
              case Success(Some(found)) =>
                Success(Trace(Assembly(Some(found.headers), found.extra), [Reply(Parsed(found.headers), found.extra)]))
  {
    assert Initial.body + text == text;
    assert rs[1..] == [rs[1]];
    match GetHeader(text)
    case Failure(e) =>
    case Success(None) =>
      FeedOne(Assembly(None, text), rs[1]);
      assert [] + [Reply(RawText(text), "")] == [Reply(RawText(text), "")];
    case Success(Some(found)) =>
      FeedOne(Assembly(Some(found.headers), found.extra), rs[1]);
      assert [] + [Reply(Parsed(found.headers), found.extra)] == [Reply(Parsed(found.headers), found.extra)];
  }

  /** The STDOUT text among `rs`, concatenated. */
  function StdoutText(rs: seq<Record>): string
    decreases |rs|
  {
    if |rs| == 0 then ""
    else (if rs[0].kind == Stdout then rs[0].body else "") + StdoutText(rs[1..])
  }

  /** The number of END_REQUEST records among `rs`. */
  function EndCount(rs: seq<Record>): nat
    decreases |rs|
  {
    if |rs| == 0 then 0
    else (if rs[0].kind == End then 1 else 0) + EndCount(rs[1..])
  }

  /**
   * Records delivered in two batches (two `data` events) give the same
   * result as the same records delivered at once.
   */
  lemma {:induction false} FeedAppend(s: Assembly, a: seq<Record>, b: seq<Record>)
    ensures Feed(s, a + b) ==
              match Feed(s, a)
              case Failure(e) => Failure(e)
              case Success(t1) =>
                match Feed(t1.final, b)
                case Failure(e) => Failure(e)
                case Success(t2) => Success(Trace(t2.final, t1.replies + t2.replies))
    decreases |a|
  {
    if |a| == 0 {
      assert a + b == b;
      match Feed(s, b)
      case Failure(e) =>
      case Success(t2) => assert [] + t2.replies == t2.replies;
    } else {
      assert (a + b)[0] == a[0];
      assert (a + b)[1..] == a[1..] + b;
      match OnRecord(s, a[0])
      case Failure(e) =>
      case Success(step) =>
        FeedAppend(step.next, a[1..], b);
        match Feed(step.next, a[1..])
        case Failure(e) =>
        case Success(t1) =>
          match Feed(t1.final, b)
          case Failure(e) =>
          case Success(t2) =>
            assert Replies(step.reply) + (t1.replies + t2.replies)
                == (Replies(step.reply) + t1.replies) + t2.replies;
    }
  }

  /** Every END_REQUEST record produces exactly one reply, a second END included. */
  lemma {:induction false} OneReplyPerEnd(s: Assembly, rs: seq<Record>)
    requires Feed(s, rs).Success?
    ensures |Feed(s, rs).value.replies| == EndCount(rs)
    decreases |rs|
  {
    if |rs| > 0 {
      var step := OnRecord(s, rs[0]).value;
      OneReplyPerEnd(step.next, rs[1..]);
    }
  }

  /**
   * Once the headers are found they never change and nothing can fail any
   * more: every later STDOUT text is appended to the body verbatim, and
   * every reply carries those headers and a body between the old and the
   * final one.
   */
  lemma {:induction false} FoundHeadersAreStable(s: Assembly, rs: seq<Record>)
    requires s.headers.Some?
    ensures Feed(s, rs).Success?
    ensures Feed(s, rs).value.final == Assembly(s.headers, s.body + StdoutText(rs))
    ensures forall k :: 0 <= k < |Feed(s, rs).value.replies| ==>
              && Feed(s, rs).value.replies[k].headers == Parsed(s.headers.value)
              && s.body <= Feed(s, rs).value.replies[k].body <= s.body + StdoutText(rs)
    decreases |rs|
  {
    if |rs| > 0 {
      var step := OnRecord(s, rs[0]).value;
      FoundHeadersAreStable(step.next, rs[1..]);
      var t := Feed(step.next, rs[1..]).value;
      var head := if rs[0].kind == Stdout then rs[0].body else "";
      assert step.next.body == s.body + head;
      assert s.body + head + StdoutText(rs[1..]) == s.body + StdoutText(rs);
      forall k | 0 <= k < |t.replies|
        ensures s.body <= t.replies[k].body <= s.body + StdoutText(rs)
      {
        assert s.body <= s.body + head;
      }
    }
  }

  /**
   * While no header block has been found, the body is the raw accumulated
   * STDOUT text and each reply is raw text with an empty body: the STDOUT
   * text buffered up to its END record.
   */
  lemma {:induction false} UnfoundRepliesAreRaw(s: Assembly, rs: seq<Record>)
    requires s.headers.None?
    requires Feed(s, rs).Success? && Feed(s, rs).value.final.headers.None?
    ensures Feed(s, rs).value.final.body == s.body + StdoutText(rs)
    ensures forall k :: 0 <= k < |Feed(s, rs).value.replies| ==>
              && Feed(s, rs).value.replies[k].headers.RawText? && Feed(s, rs).value.replies[k].body == ""
              && s.body <= Feed(s, rs).value.replies[k].headers.text <= s.body + StdoutText(rs)
    decreases |rs|
  {
    if |rs| > 0 {
      var step := OnRecord(s, rs[0]).value;
      if step.next.headers.Some? {
        FoundHeadersAreStable(step.next, rs[1..]);
        assert false;
      }
      UnfoundRepliesAreRaw(step.next, rs[1..]);
      var t := Feed(step.next, rs[1..]).value;
      var head := if rs[0].kind == Stdout then rs[0].body else "";
      assert step.next.body == s.body + head;
      assert s.body + head + StdoutText(rs[1..]) == s.body + StdoutText(rs);
      forall k | 0 <= k < |t.replies|
        ensures s.body <= t.replies[k].headers.text <= s.body + StdoutText(rs)
      {
        assert s.body <= s.body + head;
      }
    }
  }

  /** Every parsed status in a reply is at most 3 characters and starts with no white space. */
  lemma {:induction false} ReplyStatusWellFormed(s: Assembly, rs: seq<Record>)
    requires s.headers.Some? ==> WellFormedStatus(s.headers.value)
    requires Feed(s, rs).Success?
    ensures forall k :: 0 <= k < |Feed(s, rs).value.replies| && Feed(s, rs).value.replies[k].headers.Parsed? ==>
              WellFormedStatus(Feed(s, rs).value.replies[k].headers.fields)
    decreases |rs|
  {
    if |rs| > 0 {
      var step := OnRecord(s, rs[0]).value;
      ReplyStatusWellFormed(step.next, rs[1..]);
    }
  }
}

=== FILE: response_header.dfy ===
/**
 * `getHeader` of lib/util/fastcgi.js: cut the accumulated STDOUT text at the
 * first blank line and parse the part before it as CGI response header
 * lines, the `Status` line being a pseudo-header (section 6.3.3 of RFC 3875).
 */
module ResponseHeader {
  import opened Wrappers
  import opened Text

  /** The line separator of a header block. */
  const LineBreak := "\r\n"

  /** The blank line that ends a header block. */
  const Blank := "\r\n\r\n"

  /** The only way parsing can fail: `value.trim()` on a `Status` line without a colon throws. */
  datatype AssembleError = StatusWithoutValue(line: string)

  /**
   * The header object `getHeader` builds: the `status` property, when a
   * status line was seen, and one property per other header name.
   */
  datatype Headers = Headers(status: Option<string>, fields: map<string, string>)

  const NoHeaders := Headers(None, map[])

  /** What `getHeader` returns when it finds a header block. */
  datatype HeaderSplit = HeaderSplit(headers: Headers, extra: string)

  /** `key.toLowerCase() === 'status'`; only ASCII letters lower-case to the letters of "status". */
  predicate IsStatusKey(key: string) {
    ToLower(key) == "status"
  }

  /** The status key is `status` in any mix of upper and lower case, and nothing else. */
  lemma StatusKeyIgnoresCase(key: string)
    ensures IsStatusKey(key) <==>
              |key| == 6 && forall i :: 0 <= i < 6 ==> key[i] == "status"[i] || key[i] == "STATUS"[i]
  {
    var low := ToLower(key);
    if |key| == 6 {
      forall i | 0 <= i < 6
        ensures low[i] == "status"[i] <==> key[i] == "status"[i] || key[i] == "STATUS"[i]
      {
        assert "status"[i] as int == "STATUS"[i] as int + 32;
      }
      if forall i :: 0 <= i < 6 ==> low[i] == "status"[i] {
        assert low == "status";
      }
    }
  }

  // The meaning of one header line, stated through its first colon.

  /** The header name: the text before the first colon (the whole line if there is none). */
  function KeyOf(line: string): string {
    BeforeFirst(line, ":")
  }

  /** A header's value: everything after the first colon, leading space kept. */
  function FieldValueOf(line: string): string {
    AfterFirst(line, ":")
  }

  /** A status line's value: the trimmed text between the first and second colon, cut to 3 characters. */
  function StatusValueOf(line: string): string {
    Prefix(Trim(BeforeFirst(AfterFirst(line, ":"), ":")), 3)
  }

  /** A `Status` line with no colon, on which the source throws. */
  predicate IsBareStatus(line: string) {
    IsStatusKey(KeyOf(line)) && IndexOf(line, ":").None?
  }

  /** A status value as the parser leaves it: at most 3 characters, not starting with white space. */
  predicate WellFormedStatus(h: Headers) {
    h.status.Some? ==> |h.status.value| <= 3 && (|h.status.value| > 0 ==> !IsWhiteSpace(h.status.value[0]))
  }

  /** One step of the `reduce` over header lines: split the line on every colon. */
  function ParseLine(acc: Headers, line: string): (r: Result<Headers, AssembleError>)
    ensures r.Failure? <==> IsBareStatus(line)
    ensures r.Success? && IsStatusKey(KeyOf(line)) ==>
              r.value == acc.(status := Some(StatusValueOf(line)))
    ensures !IsStatusKey(KeyOf(line)) ==>
              r == Success(acc.(fields := acc.fields[KeyOf(line) := FieldValueOf(line)]))
  {
    var parts := Split(line, ":");
    SplitFirst(line, ":");
    if IsStatusKey(parts[0]) then
      if |parts| < 2 then Failure(StatusWithoutValue(line))
      else Success(acc.(status := Some(Prefix(Trim(parts[1]), 3))))
    else
      Success(acc.(fields := acc.fields[parts[0] := Join(parts[1..], ":")]))
  }

  /** The `reduce` over all lines, starting from an empty object. */
  function ParseLines(lines: seq<string>): (r: Result<Headers, AssembleError>)
    ensures r.Success? ==> WellFormedStatus(r.value)
    decreases |lines|
  {
    if |lines| == 0 then Success(NoHeaders)
    else
      match ParseLines(lines[..|lines| - 1])
      case Failure(e) => Failure(e)
      case Success(acc) => ParseLine(acc, lines[|lines| - 1])
  }

  /** Parsing fails exactly when some line is a `Status` line without a colon. */
  lemma {:induction false} ParseLinesFailsIff(lines: seq<string>)
    ensures ParseLines(lines).Failure? <==> exists i :: 0 <= i < |lines| && IsBareStatus(lines[i])
    decreases |lines|
  {
    if |lines| > 0 {
      var n := |lines| - 1;
      ParseLinesFailsIff(lines[..n]);
      ParseLinesFailStep(lines);
      BareStatusSnoc(lines, lines[..n]);
    }
  }

  /** The fold fails when the earlier lines fail or the last line is a bare status line. */
  lemma ParseLinesFailStep(lines: seq<string>)
    requires |lines| > 0
    ensures ParseLines(lines).Failure? <==>
              ParseLines(lines[..|lines| - 1]).Failure? || IsBareStatus(lines[|lines| - 1])
  {
  }

  lemma BareStatusSnoc(lines: seq<string>, init: seq<string>)
    requires |lines| > 0 && init == lines[..|lines| - 1]
    ensures (exists i :: 0 <= i < |lines| && IsBareStatus(lines[i])) <==>
              (exists i :: 0 <= i < |init| && IsBareStatus(init[i])) || IsBareStatus(lines[|lines| - 1])
  {
    if exists i :: 0 <= i < |lines| && IsBareStatus(lines[i]) {
      var i :| 0 <= i < |lines| && IsBareStatus(lines[i]);
      if i < |init| {
        assert init[i] == lines[i];
      }
    }
    if exists i :: 0 <= i < |init| && IsBareStatus(init[i]) {
      var i :| 0 <= i < |init| && IsBareStatus(init[i]);
      assert init[i] == lines[i];
    }
  }

  /** No later line has the same header name as line `i`. */
  ghost predicate LastWithKey(lines: seq<string>, i: int)
    requires 0 <= i < |lines|
  {
    forall j :: i < j < |lines| ==> KeyOf(lines[j]) != KeyOf(lines[i])
  }

  /** The last step of the fold: parse every line but the last, then the last one. */
  lemma ParseLinesStep(lines: seq<string>)
    requires |lines| > 0 && ParseLines(lines).Success?
    ensures ParseLines(lines[..|lines| - 1]).Success?
    ensures ParseLines(lines) == ParseLine(ParseLines(lines[..|lines| - 1]).value, lines[|lines| - 1])
  {
  }

  /** A name is present exactly when some non-status line carries it. */
  lemma {:induction false} ParseLinesKeys(lines: seq<string>, k: string)
    requires ParseLines(lines).Success?
    ensures k in ParseLines(lines).value.fields <==>
              exists i :: 0 <= i < |lines| && KeyOf(lines[i]) == k && !IsStatusKey(k)
    decreases |lines|
  {
    if |lines| > 0 {
      var n := |lines| - 1;
      ParseLinesStep(lines);
      ParseLinesKeys(lines[..n], k);
      FieldsStep(ParseLines(lines[..n]).value, lines[n], k);
      KeySnoc(lines, lines[..n], k);
    }
  }

  /** One line adds its own name, unless it is a status line, and keeps every other. */
  lemma FieldsStep(acc: Headers, line: string, k: string)
    requires ParseLine(acc, line).Success?
    ensures k in ParseLine(acc, line).value.fields <==> k in acc.fields || (KeyOf(line) == k && !IsStatusKey(k))
  {
  }

  lemma KeySnoc(lines: seq<string>, init: seq<string>, k: string)
    requires |lines| > 0 && init == lines[..|lines| - 1]
    ensures (exists i :: 0 <= i < |lines| && KeyOf(lines[i]) == k && !IsStatusKey(k)) <==>
              (exists i :: 0 <= i < |init| && KeyOf(init[i]) == k && !IsStatusKey(k))
              || (KeyOf(lines[|lines| - 1]) == k && !IsStatusKey(k))
  {
    if exists i :: 0 <= i < |lines| && KeyOf(lines[i]) == k && !IsStatusKey(k) {
      var i :| 0 <= i < |lines| && KeyOf(lines[i]) == k && !IsStatusKey(k);
      if i < |init| {
        assert init[i] == lines[i];
      }
    }
    if exists i :: 0 <= i < |init| && KeyOf(init[i]) == k && !IsStatusKey(k) {
      var i :| 0 <= i < |init| && KeyOf(init[i]) == k && !IsStatusKey(k);
      assert init[i] == lines[i];
    }
  }

  /** A name maps to the value of its last line: a later duplicate overwrites an earlier one. */
  lemma {:induction false} ParseLinesLastWins(lines: seq<string>, i: nat)
    requires ParseLines(lines).Success?
    requires i < |lines| && !IsStatusKey(KeyOf(lines[i])) && LastWithKey(lines, i)
    ensures KeyOf(lines[i]) in ParseLines(lines).value.fields
    ensures ParseLines(lines).value.fields[KeyOf(lines[i])] == FieldValueOf(lines[i])
    decreases |lines|
  {
    var n := |lines| - 1;
    var init := lines[..n];
    ParseLinesStep(lines);
    if i < n {
      assert init[i] == lines[i];
      assert LastWithKey(init, i) by {
        forall j | i < j < n ensures KeyOf(init[j]) != KeyOf(init[i]) {
          assert init[j] == lines[j];
        }
      }
      ParseLinesLastWins(init, i);
      assert KeyOf(lines[n]) != KeyOf(lines[i]);
    }
  }

  /** No later line is a status line. */
  ghost predicate LastStatus(lines: seq<string>, i: int)
    requires 0 <= i < |lines|
  {
    forall j :: i < j < |lines| ==> !IsStatusKey(KeyOf(lines[j]))
  }

  /** The status is set exactly when a status line occurs. */
  lemma {:induction false} ParseLinesHasStatus(lines: seq<string>)
    requires ParseLines(lines).Success?
    ensures ParseLines(lines).value.status.Some? <==>
              exists i :: 0 <= i < |lines| && IsStatusKey(KeyOf(lines[i]))
    decreases |lines|
  {
    if |lines| > 0 {
      var n := |lines| - 1;
      ParseLinesStep(lines);
      ParseLinesHasStatus(lines[..n]);
      StatusSnoc(lines, lines[..n]);
    }
  }

  lemma StatusSnoc(lines: seq<string>, init: seq<string>)
    requires |lines| > 0 && init == lines[..|lines| - 1]
    ensures (exists i :: 0 <= i < |lines| && IsStatusKey(KeyOf(lines[i]))) <==>
              (exists i :: 0 <= i < |init| && IsStatusKey(KeyOf(init[i]))) || IsStatusKey(KeyOf(lines[|lines| - 1]))
  {
    if exists i :: 0 <= i < |lines| && IsStatusKey(KeyOf(lines[i])) {
      var i :| 0 <= i < |lines| && IsStatusKey(KeyOf(lines[i]));
      if i < |init| {
        assert init[i] == lines[i];
      }
    }
    if exists i :: 0 <= i < |init| && IsStatusKey(KeyOf(init[i])) {
      var i :| 0 <= i < |init| && IsStatusKey(KeyOf(init[i]));
      assert init[i] == lines[i];
    }
  }

  /** The last status line decides the status. */
  lemma {:induction false} ParseLinesStatusLastWins(lines: seq<string>, i: nat)
    requires ParseLines(lines).Success?
    requires i < |lines| && IsStatusKey(KeyOf(lines[i])) && LastStatus(lines, i)
    ensures ParseLines(lines).value.status == Some(StatusValueOf(lines[i]))
    decreases |lines|
  {
    var n := |lines| - 1;
    var init := lines[..n];
    ParseLinesStep(lines);
    if i < n {
      assert init[i] == lines[i];
      assert LastStatus(init, i) by {
        forall j | i < j < n ensures !IsStatusKey(KeyOf(init[j])) {
          assert init[j] == lines[j];
        }
      }
      ParseLinesStatusLastWins(init, i);
      assert !IsStatusKey(KeyOf(lines[n]));
    }
  }

  /** The header text `getHeader` looks at: everything before the first blank line. */
  function HeaderText(text: string): string {
    BeforeFirst(text, Blank)
  }

  /**
   * `getHeader(text)`: `Success(None)` for the source's `null`,
   * `Failure` for the throw on a bare status line.
   */
  function GetHeader(text: string): (r: Result<Option<HeaderSplit>, AssembleError>)
    ensures r == Success(None) <==> HeaderText(text) == ""
    ensures r.Failure? <==> HeaderText(text) != "" && ParseLines(Split(HeaderText(text), LineBreak)).Failure?
    ensures r.Success? && r.value.Some? ==>
              && r.value.value.extra == AfterFirst(text, Blank)
              && ParseLines(Split(HeaderText(text), LineBreak)) == Success(r.value.value.headers)
  {
    var fragments := Split(text, Blank);
    SplitFirst(text, Blank);
    if fragments[0] == "" then Success(None)
    else
      match ParseLines(Split(fragments[0], LineBreak))
      case Failure(e) => Failure(e)
      case Success(h) => Success(Some(HeaderSplit(h, Join(fragments[1..], Blank))))
  }

  /**
   * `getHeader` returns null exactly when the text is empty or begins with
   * the blank line; any other text, delimiter or not, yields a header block.
   */
  lemma NullIffEmptyHeaderText(text: string)
    ensures GetHeader(text) == Success(None) <==>
              text == "" || (|text| >= |Blank| && text[..|Blank|] == Blank)
  {
    if |text| >= |Blank| && text[..|Blank|] == Blank {
      assert OccursAt(text, Blank, 0);
    }
  }

  /**
   * With a blank line present, header text, blank line and `extra` put back
   * together are the input; without one the whole input is the header text
   * and `extra` is empty. The header text never contains a blank line.
   */
  lemma HeaderSplitRoundTrip(text: string)
    requires GetHeader(text).Success? && GetHeader(text).value.Some?
    ensures IndexOf(text, Blank).Some? ==> HeaderText(text) + Blank + GetHeader(text).value.value.extra == text
    ensures IndexOf(text, Blank).None? ==> HeaderText(text) == text && GetHeader(text).value.value.extra == ""
    ensures Free(HeaderText(text), Blank)
  {
    FirstSplitRoundTrip(text, Blank);
  }
}

=== FILE: scenarios.dfy ===
/** Worked responder outputs traced through `getHeader` and the record fold. */
module Scenarios {
  import opened Wrappers
  import opened Text
  import opened Protocol
  import opened ResponseHeader
  import opened ResponseAssembler

  /**
   * In two CR-free lines followed by a blank line, the first blank line is
   * the one after the second line.
   */
  lemma BlankAfterTwoLines(text: string, a: string, b: string, c: string)
    requires text == a + LineBreak + b + Blank + c
    requires '\r' !in a && |b| > 0 && '\r' !in b
    ensures IndexOf(text, Blank) == Some(|a| + 2 + |b|)
  {
    var n := |a| + 2 + |b|;
    assert OccursAt(text, a, 0) by { PieceFirst(text, a); }
    assert OccursAt(text, b, |a| + 2) by { PieceAfter(text, a + LineBreak, b); }
    assert OccursAt(text, LineBreak, |a|) by { PieceAfter(text, a, LineBreak); }
    forall j | 0 <= j < n
      ensures !OccursAt(text, Blank, j)
    {
      if j < |a| {
        NoneStartInPiece(text, a, 0, Blank);
      } else if j == |a| {
        assert text[j + 2] == text[|a| + 2..|a| + 2 + |b|][0] == b[0] != Blank[2];
        assert text[j..j + 4][2] == text[j + 2];
      } else if j == |a| + 1 {
        assert text[j] == text[|a|..|a| + 2][1] == LineBreak[1] != Blank[0];
        assert text[j..j + 4][0] == text[j];
      } else {
        NoneStartInPiece(text, b, |a| + 2, Blank);
      }
    }
    assert OccursAt(text, Blank, n) by { PieceAfter(text, a + LineBreak + b, Blank); }
    FirstOccurrence(text, Blank, n);
  }

  /** The first blank line of the example response follows its two header lines. */
  lemma BlankAt33(text: string)
    requires text == "Status: 404 Not Found" + LineBreak + "X-Foo: bar" + Blank + "hello"
    ensures IndexOf(text, Blank) == Some(33)
  {
    BlankAfterTwoLines(text, "Status: 404 Not Found", "X-Foo: bar", "hello");
  }

  /** Two CR-free lines joined by a line break split back into those two lines. */
  lemma SplitTwoLines(block: string, a: string, b: string)
    requires block == a + LineBreak + b && '\r' !in a && '\r' !in b
    ensures Split(block, LineBreak) == [a, b]
  {
    assert IndexOf(block, LineBreak) == Some(|a|) by {
      PieceFirst(block, a);
      NoneStartInPiece(block, a, 0, LineBreak);
      PieceAfter(block, a, LineBreak);
      FirstOccurrence(block, LineBreak, |a|);
    }
    assert block[..|a|] == a by { TakePrefix(block, a); }
    assert block[|a| + 2..] == b;
    assert Split(b, LineBreak) == [b] by {
      CharAbsent(b, LineBreak);
      SplitNone(b, LineBreak);
    }
    SplitAt(block, LineBreak, |a|);
  }

  /** The example header block splits into its two lines. */
  lemma TwoLines(block: string)
    requires block == "Status: 404 Not Found" + LineBreak + "X-Foo: bar"
    ensures Split(block, LineBreak) == ["Status: 404 Not Found", "X-Foo: bar"]
  {
    SplitTwoLines(block, "Status: 404 Not Found", "X-Foo: bar");
  }

  lemma StatusLineSplit(l1: string)
    requires l1 == "Status: 404 Not Found"
    ensures KeyOf(l1) == "Status" && AfterFirst(l1, ":") == " 404 Not Found"
  {
    assert forall j :: 0 <= j < 6 ==> !OccursAt(l1, ":", j) by { NoneStartIn(l1, ":", 0, 6); }
    assert OccursAt(l1, ":", 6) by { assert l1[6..7] == ":"; }
    FirstOccurrence(l1, ":", 6);
  }

  lemma StatusValueTrimmed(v: string)
    requires v == " 404 Not Found"
    ensures Prefix(Trim(BeforeFirst(v, ":")), 3) == "404"
  {
    assert forall j :: 0 <= j < |v| ==> !OccursAt(v, ":", j) by { NoneStartIn(v, ":", 0, |v|); }
    assert BeforeFirst(v, ":") == v;
    assert TrimStart(v) == v[1..] by {
      assert !IsWhiteSpace(v[1..][0]);
    }
    assert TrimEnd(v[1..]) == v[1..] by {
      assert !IsWhiteSpace(v[|v| - 1]);
    }
    assert v[1..][..3] == "404";
  }

  lemma StatusLine(l1: string)
    requires l1 == "Status: 404 Not Found"
    ensures IsStatusKey(KeyOf(l1))
    ensures StatusValueOf(l1) == "404"
  {
    StatusLineSplit(l1);
    StatusValueTrimmed(AfterFirst(l1, ":"));
    StatusKey("Status");
  }

  lemma StatusKey(k: string)
    requires k == "Status"
    ensures IsStatusKey(k)
  {
    var l := ToLower(k);
    assert l[0] == 's' && l[1] == 't' && l[2] == 'a' && l[3] == 't' && l[4] == 'u' && l[5] == 's';
  }

  lemma FooLine()
    ensures KeyOf("X-Foo: bar") == "X-Foo" && !IsStatusKey("X-Foo")
    ensures FieldValueOf("X-Foo: bar") == " bar"
  {
    assert forall j :: 0 <= j < 5 ==> !OccursAt("X-Foo: bar", ":", j) by { NoneStartIn("X-Foo: bar", ":", 0, 5); }
    FirstOccurrence("X-Foo: bar", ":", 5);
    assert ToLower("X-Foo")[0] == 'x';
  }

  lemma NotFoundLines(l1: string, l2: string)
    requires l1 == "Status: 404 Not Found" && l2 == "X-Foo: bar"
    ensures ParseLines([l1, l2]) == Success(Headers(Some("404"), map["X-Foo" := " bar"]))
  {
    StatusLine(l1);
    FooLine();
    assert [l1, l2][..1] == [l1];
    assert [l1][..0] == [];
    assert ParseLines([l1]) == Success(Headers(Some("404"), map[]));
  }

  lemma NotFoundHeaders(text: string)
    requires text == "Status: 404 Not Found" + LineBreak + "X-Foo: bar" + Blank + "hello"
    ensures GetHeader(text) == Success(Some(HeaderSplit(Headers(Some("404"), map["X-Foo" := " bar"]), "hello")))
  {
    var block := "Status: 404 Not Found" + LineBreak + "X-Foo: bar";
    BlankAt33(text);
    TakePrefix(text, block);
    assert HeaderText(text) == block;
    assert AfterFirst(text, Blank) == text[|block + Blank|..] == "hello";
    TwoLines(block);
    NotFoundLines("Status: 404 Not Found", "X-Foo: bar");
  }

  /** The example exchange: status line, one header, blank line, body. */
  lemma NotFoundResponse(rs: seq<Record>, text: string)
    requires text == "Status: 404 Not Found" + LineBreak + "X-Foo: bar" + Blank + "hello"
    requires rs == [Record(Stdout, text), Record(End, "")]
    ensures Feed(Initial, rs)
         == Success(Trace(Assembly(Some(Headers(Some("404"), map["X-Foo" := " bar"])), "hello"),
                          [Reply(Parsed(Headers(Some("404"), map["X-Foo" := " bar"])), "hello")]))
  {
    NotFoundHeaders(text);
    SingleRecordResponse(rs, text);
  }

  lemma OneFieldLine(line: string)
    requires line == "X: 1"
    ensures ParseLine(NoHeaders, line) == Success(Headers(None, map["X" := " 1"]))
  {
    assert forall j :: 0 <= j < 1 ==> !OccursAt(line, ":", j) by { NoneStartIn(line, ":", 0, 1); }
    assert OccursAt(line, ":", 1) by { assert line[1..2] == ":"; }
    FirstOccurrence(line, ":", 1);
    assert KeyOf(line) == "X" && FieldValueOf(line) == " 1";
    assert ToLower("X")[0] == 'x';
  }

  /** A header block cut just before its last CRLF: two lines, the second empty. */
  lemma EarlyBlock(text: string)
    requires text == "X: 1\r\n"
    ensures GetHeader(text) == Success(Some(HeaderSplit(Headers(None, map["X" := " 1", "" := ""]), "")))
  {
    assert forall j :: 0 <= j < 4 ==> !OccursAt(text, Blank, j) by { NoneStartIn(text, Blank, 0, 4); }
    assert IndexOf(text, Blank).None?;
    assert HeaderText(text) == text;
    assert forall j :: 0 <= j < 4 ==> !OccursAt(text, LineBreak, j) by { NoneStartIn(text, LineBreak, 0, 4); }
    assert OccursAt(text, LineBreak, 4) by { assert text[4..6] == LineBreak; }
    FirstOccurrence(text, LineBreak, 4);
    SplitAt(text, LineBreak, 4);
    assert text[..4] == "X: 1" && text[6..] == "";
    SplitNone("", LineBreak);
    assert Split(text, LineBreak) == ["X: 1", ""];
    OneFieldLine("X: 1");
    assert KeyOf("") == "" && FieldValueOf("") == "";
    assert ["X: 1", ""][..1] == ["X: 1"];
    assert ["X: 1"][..0] == [];
    assert ParseLines(["X: 1"]) == Success(Headers(None, map["X" := " 1"]));
  }

  /** The same header block with its blank line in one piece. */
  lemma WholeBlock(text: string)
    requires text == "X: 1\r\n\r\nhi"
    ensures GetHeader(text) == Success(Some(HeaderSplit(Headers(None, map["X" := " 1"]), "hi")))
  {
    assert forall j :: 0 <= j < 4 ==> !OccursAt(text, Blank, j) by { NoneStartIn(text, Blank, 0, 4); }
    assert OccursAt(text, Blank, 4) by { assert text[4..8] == Blank; }
    FirstOccurrence(text, Blank, 4);
    assert HeaderText(text) == "X: 1" && AfterFirst(text, Blank) == "hi";
    assert forall j :: 0 <= j < 4 ==> !OccursAt("X: 1", LineBreak, j) by { NoneStartIn("X: 1", LineBreak, 0, 4); }
    SplitNone("X: 1", LineBreak);
    OneFieldLine("X: 1");
    assert ["X: 1"][..0] == [];
  }

  /** Once headers are found, one more STDOUT record and END_REQUEST reply with the grown body. */
  lemma FoundThenEnd(h: Headers, body: string, more: string, rest: seq<Record>)
    requires rest == [Record(Stdout, more), Record(End, "")]
    ensures Feed(Assembly(Some(h), body), rest)
              == Success(Trace(Assembly(Some(h), body + more), [Reply(Parsed(h), body + more)]))
  {
    var s2 := Assembly(Some(h), body + more);
    var reply := Reply(Parsed(h), body + more);
    assert Feed(s2, rest[1..]) == Success(Trace(s2, [reply])) by {
      assert rest[1..] == [rest[1]];
      FeedOne(s2, rest[1]);
    }
    FeedSilentStep(Assembly(Some(h), body), rest, s2, Trace(s2, [reply]));
  }

  /** Delivered in two pieces, the first STDOUT record alone becomes the header block. */
  lemma SplitDelivery(rs: seq<Record>)
    requires rs == [Record(Stdout, "X: 1\r\n"), Record(Stdout, "\r\nhi"), Record(End, "")]
    ensures Feed(Initial, rs) == Success(Trace(Assembly(Some(Headers(None, map["X" := " 1", "" := ""])), "\r\nhi"),
                                               [Reply(Parsed(Headers(None, map["X" := " 1", "" := ""])), "\r\nhi")]))
  {
    var early := Headers(None, map["X" := " 1", "" := ""]);
    var s1 := Assembly(Some(early), "");
    var t := Trace(Assembly(Some(early), "\r\nhi"), [Reply(Parsed(early), "\r\nhi")]);
    assert OnRecord(Initial, rs[0]) == Success(Step(s1, None)) by {
      assert Initial.body + rs[0].body == rs[0].body;
      EarlyBlock(rs[0].body);
    }
    assert Feed(s1, rs[1..]) == Success(t) by {
      FoundThenEnd(early, "", "\r\nhi", rs[1..]);
      assert "" + "\r\nhi" == "\r\nhi";
    }
    FeedSilentStep(Initial, rs, s1, t);
  }

  /**
   * The assembler does not wait for the blank line: when it arrives split
   * over two STDOUT records, the first record alone is taken as the whole
   * header block (with an empty last line), and the blank line's second
   * half lands in the body. In one record the same text gives a different
   * reply.
   */
  lemma ChunkBoundaryMatters(split: seq<Record>, whole: seq<Record>)
    requires split == [Record(Stdout, "X: 1\r\n"), Record(Stdout, "\r\nhi"), Record(End, "")]
    requires whole == [Record(Stdout, "X: 1\r\n\r\nhi"), Record(End, "")]
    ensures StdoutText(split) == StdoutText(whole)
    ensures Feed(Initial, split).Success? && Feed(Initial, split).value.replies
              == [Reply(Parsed(Headers(None, map["X" := " 1", "" := ""])), "\r\nhi")]
    ensures Feed(Initial, whole).Success? && Feed(Initial, whole).value.replies
              == [Reply(Parsed(Headers(None, map["X" := " 1"])), "hi")]
  {
    assert StdoutText(split[2..]) == "" && StdoutText(whole[1..]) == "";
    assert StdoutText(split[1..]) == "\r\nhi";
    assert StdoutText(split) == "X: 1\r\n" + "\r\nhi";
    assert "X: 1\r\n" + "\r\nhi" == "X: 1\r\n\r\nhi";
    SplitDelivery(split);
    WholeBlock(whole[0].body);
    SingleRecordResponse(whole, whole[0].body);
  }

  /** No STDOUT before END_REQUEST: an empty raw header text and an empty body. */
  lemma NoOutput(rs: seq<Record>)
    requires rs == [Record(End, "")]
    ensures Feed(Initial, rs) == Success(Trace(Initial, [Reply(RawText(""), "")]))
  {
    FeedOne(Initial, rs[0]);
  }

  /** Every END_REQUEST calls back again: two ENDs, two replies. */
  lemma SecondEndRepliesAgain(rs: seq<Record>)
    requires rs == [Record(End, ""), Record(End, "")]
    ensures Feed(Initial, rs) == Success(Trace(Initial, [Reply(RawText(""), ""), Reply(RawText(""), "")]))
  {
    FeedOne(Initial, rs[0]);
    FeedOne(Initial, rs[1]);
    assert rs == [rs[0]] + [rs[1]];
    FeedAppend(Initial, [rs[0]], [rs[1]]);
    assert [Reply(RawText(""), "")] + [Reply(RawText(""), "")] == [Reply(RawText(""), ""), Reply(RawText(""), "")];
  }

  /**
   * Non-empty text without a colon or a carriage return, and not the word
   * `status` itself, is one header name with an empty value.
   */
  lemma NoBlankLineHeader(text: string)
    requires text != "" && ':' !in text && '\r' !in text && !IsStatusKey(text)
    ensures GetHeader(text) == Success(Some(HeaderSplit(Headers(None, map[text := ""]), "")))
  {
    CharAbsent(text, Blank);
    CharAbsent(text, LineBreak);
    CharAbsent(text, ":");
    SplitNone(text, LineBreak);
    assert HeaderText(text) == text && AfterFirst(text, Blank) == "";
    assert KeyOf(text) == text && FieldValueOf(text) == "";
    assert [text][..0] == [];
    var h := Headers(None, map[text := ""]);
    assert Split(HeaderText(text), LineBreak) == [text];
    assert ParseLine(NoHeaders, text) == Success(h);
    assert ParseLines([text]) == Success(h);
  }

  /**
   * Output of that kind with no blank line is still parsed as a header block
   * rather than falling back to the raw text: it becomes a header name with
   * an empty value, and the body is empty.
   */
  lemma NoBlankLine(rs: seq<Record>, text: string)
    requires text != "" && ':' !in text && '\r' !in text && !IsStatusKey(text)
    requires rs == [Record(Stdout, text), Record(End, "")]
    ensures Feed(Initial, rs).Success?
    ensures Feed(Initial, rs).value.replies == [Reply(Parsed(Headers(None, map[text := ""])), "")]
  {
    NoBlankLineHeader(text);
    SingleRecordResponse(rs, text);
  }

  /** `not-a-valid-response` is such a text. */
  lemma NotAValidResponse(text: string)
    requires text == "not-a-valid-response"
    ensures GetHeader(text) == Success(Some(HeaderSplit(Headers(None, map[text := ""]), "")))
  {
    assert !IsStatusKey(text) by { assert |ToLower(text)| == 20; }
    NoBlankLineHeader(text);
  }

  /** Only output that starts with the blank line falls back to the raw text. */
  lemma LeadingBlankLine(rs: seq<Record>, text: string)
    requires text == "\r\n\r\nhi"
    requires rs == [Record(Stdout, text), Record(End, "")]
    ensures Feed(Initial, rs) == Success(Trace(Assembly(None, "\r\n\r\nhi"), [Reply(RawText("\r\n\r\nhi"), "")]))
  {
    NullIffEmptyHeaderText(text);
    assert text[..4] == Blank;
    SingleRecordResponse(rs, text);
  }

  lemma BareStatusHeader(text: string)
    requires text == "Status\r\n\r\n"
    ensures GetHeader(text).Failure?
  {
    assert forall j :: 0 <= j < 6 ==> !OccursAt(text, Blank, j) by { NoneStartIn(text, Blank, 0, 6); }
    assert OccursAt(text, Blank, 6) by { assert text[6..10] == Blank; }
    FirstOccurrence(text, Blank, 6);
    assert HeaderText(text) == "Status";
    CharAbsent("Status", LineBreak);
    SplitNone("Status", LineBreak);
    CharAbsent("Status", ":");
    assert KeyOf("Status") == "Status";
    StatusKey("Status");
    assert IsBareStatus("Status");
    ParseLinesFailsIff(["Status"]);
    assert ["Status"][0] == "Status";
  }

  /** A `Status` line without a colon throws, and no reply is ever made. */
  lemma BareStatusThrows(rs: seq<Record>, text: string)
    requires text == "Status\r\n\r\n"
    requires rs == [Record(Stdout, text), Record(End, "")]
    ensures Feed(Initial, rs).Failure?
  {
    BareStatusHeader(text);
    SingleRecordResponse(rs, text);
  }
}

=== FILE: text.dfy ===
/**
 * String helpers with the semantics of the JavaScript built-ins the client
 * relies on: `indexOf`, `split` and `join` with a non-empty separator,
 * `trim`, `slice(0, n)`, and (ASCII) case mapping.
 */
module Text {
  import opened Wrappers

  /** `pat` occurs in `s` starting at position `i`. */
  ghost predicate OccursAt(s: string, pat: string, i: int) {
    0 <= i && i + |pat| <= |s| && s[i..i + |pat|] == pat
  }

  /** `s` contains no occurrence of `pat`. */
  ghost predicate Free(s: string, pat: string) {
    forall i :: !OccursAt(s, pat, i)
  }

  /** The first occurrence of `pat` in `s` at or after position `k`. */
  function IndexFrom(s: string, pat: string, k: nat): (r: Option<nat>)
    requires |pat| > 0 && k <= |s|
    ensures r.Some? ==> k <= r.value && OccursAt(s, pat, r.value)
    ensures r.Some? ==> forall j :: k <= j < r.value ==> !OccursAt(s, pat, j)
    ensures r.None? ==> forall j :: k <= j ==> !OccursAt(s, pat, j)
    decreases |s| - k
  {
    if k + |pat| > |s| then None
    else if s[k..k + |pat|] == pat then Some(k)
    else IndexFrom(s, pat, k + 1)
  }

  /** `s.indexOf(pat)`, with "not found" as `None`. */
  function IndexOf(s: string, pat: string): (r: Option<nat>)
    requires |pat| > 0
    ensures r.Some? ==> OccursAt(s, pat, r.value)
    ensures r.Some? ==> forall j :: 0 <= j < r.value ==> !OccursAt(s, pat, j)
    ensures r.None? <==> Free(s, pat)
  {
    IndexFrom(s, pat, 0)
  }

  /** The text before the first occurrence of `sep`, or all of `s`. */
  function BeforeFirst(s: string, sep: string): string
    requires |sep| > 0
  {
    match IndexOf(s, sep)
    case None => s
    case Some(i) => s[..i]
  }

  /** The text after the first occurrence of `sep`, or nothing. */
  function AfterFirst(s: string, sep: string): string
    requires |sep| > 0
  {
    match IndexOf(s, sep)
    case None => ""
    case Some(i) => s[i + |sep|..]
  }

  /** An occurrence inside a prefix of `s` is an occurrence in `s`. */
  lemma OccursInPrefix(s: string, pat: string, n: nat, j: int)
    requires n <= |s|
    requires OccursAt(s[..n], pat, j)
    ensures OccursAt(s, pat, j)
  {
    assert s[..n][j..j + |pat|] == s[j..j + |pat|];
  }

  /**
   * Splitting at the first occurrence of a separator loses nothing: the
   * part before it, the separator and the part after it give back `s`, and
   * the part before it holds no occurrence of the separator.
   */
  lemma FirstSplitRoundTrip(s: string, sep: string)
    requires |sep| > 0
    ensures IndexOf(s, sep).Some? ==> BeforeFirst(s, sep) + sep + AfterFirst(s, sep) == s
    ensures IndexOf(s, sep).None? ==> BeforeFirst(s, sep) == s && AfterFirst(s, sep) == ""
    ensures Free(BeforeFirst(s, sep), sep)
  {
    match IndexOf(s, sep)
    case None =>
    case Some(i) =>
      assert s == s[..i] + s[i..i + |sep|] + s[i + |sep|..];
      forall j | OccursAt(s[..i], sep, j)
        ensures false
      {
        OccursInPrefix(s, sep, i, j);
      }
  }

  /** An occurrence with none before it is the one `IndexOf` finds. */
  lemma FirstOccurrence(s: string, pat: string, i: nat)
    requires |pat| > 0 && OccursAt(s, pat, i)
    requires forall j :: 0 <= j < i ==> !OccursAt(s, pat, j)
    ensures IndexOf(s, pat) == Some(i)
  {
  }

  /** A one-character pattern occurs wherever that character is. */
  lemma OccursAtChar(s: string, c: char, i: nat)
    requires i < |s| && s[i] == c
    ensures OccursAt(s, [c], i)
  {
    assert s[i..i + 1] == [s[i]];
  }

  /** No occurrence of `pat` starts where its first character is absent. */
  lemma NoneStartIn(s: string, pat: string, lo: nat, hi: nat)
    requires |pat| > 0 && lo <= hi <= |s|
    requires pat[0] !in s[lo..hi]
    ensures forall j :: lo <= j < hi ==> !OccursAt(s, pat, j)
  {
    forall j | lo <= j < hi
      ensures !OccursAt(s, pat, j)
    {
      assert s[lo..hi][j - lo] == s[j];
      if j + |pat| <= |s| {
        assert s[j..j + |pat|][0] == s[j];
      }
    }
  }

  /** `pat` does not occur at `j` when one of its characters differs from the text there. */
  lemma MismatchAt(s: string, pat: string, j: nat, k: nat)
    requires k < |pat| && j + k < |s| && s[j + k] != pat[k]
    ensures !OccursAt(s, pat, j)
  {
    assert j + |pat| <= |s| ==> s[j..j + |pat|][k] == s[j + k];
  }

  /** A text without the first character of `pat` does not contain `pat`. */
  lemma CharAbsent(s: string, pat: string)
    requires |pat| > 0 && pat[0] !in s
    ensures Free(s, pat) && IndexOf(s, pat).None?
  {
    assert s[0..|s|] == s;
    NoneStartIn(s, pat, 0, |s|);
  }

  /** No occurrence of `pat` starts inside a piece of `s` that lacks its first character. */
  lemma NoneStartInPiece(s: string, piece: string, lo: nat, pat: string)
    requires OccursAt(s, piece, lo) && |pat| > 0 && pat[0] !in piece
    ensures forall j :: lo <= j < lo + |piece| ==> !OccursAt(s, pat, j)
  {
    forall j | lo <= j < lo + |piece|
      ensures !OccursAt(s, pat, j)
    {
      assert s[j] == s[lo..lo + |piece|][j - lo] == piece[j - lo];
      if j + |pat| <= |s| {
        assert s[j..j + |pat|][0] == s[j];
      }
    }
  }

  /** In a text that starts with `x + y`, `y` occurs right after `x`. */
  lemma PieceAfter(s: string, x: string, y: string)
    requires x + y <= s
    ensures OccursAt(s, y, |x|)
  {
    assert s[|x|..|x| + |y|] == (x + y)[|x|..];
  }

  /** A text that starts with `x` has `x` at position 0. */
  lemma PieceFirst(s: string, x: string)
    requires x <= s
    ensures OccursAt(s, x, 0)
  {
    assert s[0..|x|] == s[..|x|];
  }

  /** A text that starts with `p` gives back `p` when cut at its length. */
  lemma TakePrefix(s: string, p: string)
    requires p <= s
    ensures s[..|p|] == p
  {
  }

  /** `parts.join(sep)`. */
  function Join(parts: seq<string>, sep: string): string
    decreases |parts|
  {
    if |parts| == 0 then ""
    else if |parts| == 1 then parts[0]
    else parts[0] + sep + Join(parts[1..], sep)
  }

  /**
   * `s.split(sep)` for a non-empty separator: the pieces between successive
   * non-overlapping occurrences, scanning left to right.
   */
  function Split(s: string, sep: string): (parts: seq<string>)
    requires |sep| > 0
    ensures |parts| >= 1
    ensures Join(parts, sep) == s
    ensures forall k :: 0 <= k < |parts| ==> Free(parts[k], sep)
    decreases |s|
  {
    match IndexOf(s, sep)
    case None => [s]
    case Some(i) =>
      FirstSplitRoundTrip(s, sep);
      [s[..i]] + Split(s[i + |sep|..], sep)
  }

  /** Splitting cuts at the first separator and goes on after it. */
  lemma SplitAt(s: string, sep: string, i: nat)
    requires |sep| > 0 && IndexOf(s, sep) == Some(i)
    ensures Split(s, sep) == [s[..i]] + Split(s[i + |sep|..], sep)
  {
  }

  /** Without a separator there is one piece. */
  lemma SplitNone(s: string, sep: string)
    requires |sep| > 0 && IndexOf(s, sep).None?
    ensures Split(s, sep) == [s]
  {
  }

  /**
   * The first piece of a split is the text before the first separator,
   * there is a second piece exactly when the separator occurs, and the
   * remaining pieces joined back are the text after it.
   */
  lemma SplitFirst(s: string, sep: string)
    requires |sep| > 0
    ensures Split(s, sep)[0] == BeforeFirst(s, sep)
    ensures |Split(s, sep)| >= 2 <==> IndexOf(s, sep).Some?
    ensures Join(Split(s, sep)[1..], sep) == AfterFirst(s, sep)
    ensures |Split(s, sep)| >= 2 ==> Split(s, sep)[1] == BeforeFirst(AfterFirst(s, sep), sep)
  {
    match IndexOf(s, sep)
    case None =>
    case Some(i) =>
      var rest := Split(s[i + |sep|..], sep);
      assert Split(s, sep)[1..] == rest;
      SplitFirst(s[i + |sep|..], sep);
  }

  /**
   * The ECMAScript WhiteSpace and LineTerminator code points, which `trim`
   * strips: tab, line feed, vertical tab, form feed, carriage return, space,
   * no-break space, the Unicode space separators, the line and paragraph
   * separators and the byte order mark.
   */
  predicate IsWhiteSpace(c: char) {
    var n := c as int;
    || 0x09 <= n <= 0x0D
    || n == 0x20 || n == 0xA0 || n == 0x1680
    || 0x2000 <= n <= 0x200A
    || n == 0x2028 || n == 0x2029 || n == 0x202F || n == 0x205F
    || n == 0x3000 || n == 0xFEFF
  }

  /** `s` with its leading white space removed. */
  function TrimStart(s: string): (r: string)
    ensures |r| <= |s| && r == s[|s| - |r|..]
    ensures forall i :: 0 <= i < |s| - |r| ==> IsWhiteSpace(s[i])
    ensures |r| > 0 ==> !IsWhiteSpace(r[0])
    decreases |s|
  {
    if |s| > 0 && IsWhiteSpace(s[0]) then
      var r := TrimStart(s[1..]);
      assert s[|s| - |r|..] == s[1..][|s| - 1 - |r|..];
      assert forall i :: 1 <= i < |s| - |r| ==> s[i] == s[1..][i - 1];
      r
    else s
  }

  /** `s` with its trailing white space removed. */
  function TrimEnd(s: string): (r: string)
    ensures |r| <= |s| && r == s[..|r|]
    ensures forall i :: |r| <= i < |s| ==> IsWhiteSpace(s[i])
    ensures |r| > 0 ==> !IsWhiteSpace(r[|r| - 1])
    decreases |s|
  {
    if |s| > 0 && IsWhiteSpace(s[|s| - 1]) then
      var r := TrimEnd(s[..|s| - 1]);
      assert s[..|r|] == s[..|s| - 1][..|r|];
      assert forall i :: |r| <= i < |s| - 1 ==> s[i] == s[..|s| - 1][i];
      r
    else s
  }

  /**
   * `s.trim()`: the result is the part of `s` left between its leading and
   * its trailing white space, and has no white space at either end.
   */
  function Trim(s: string): (r: string)
    ensures exists a :: Trims(s, r, a)
    ensures |r| > 0 ==> !IsWhiteSpace(r[0]) && !IsWhiteSpace(r[|r| - 1])
  {
    var t := TrimStart(s);
    var r := TrimEnd(t);
    assert Trims(s, r, |s| - |t|) by {
      assert r == s[|s| - |t|..][..|r|];
      forall i | |s| - |t| + |r| <= i < |s| ensures IsWhiteSpace(s[i]) {
        assert s[i] == t[i - (|s| - |t|)];
      }
    }
    r
  }

  /** `r` is the piece of `s` at `a`, and everything of `s` around it is white space. */
  ghost predicate Trims(s: string, r: string, a: nat) {
    && a + |r| <= |s| && r == s[a..a + |r|]
    && (forall i :: 0 <= i < a ==> IsWhiteSpace(s[i]))
    && (forall i :: a + |r| <= i < |s| ==> IsWhiteSpace(s[i]))
  }

  /**
   * Trimming is determined by the two white-space ends: any piece of `s`
   * surrounded by white space and without white space at its ends is what
   * `trim` returns.
   */
  lemma {:induction false} TrimUnique(s: string, r: string, a: nat)
    requires Trims(s, r, a)
    requires |r| > 0 ==> !IsWhiteSpace(r[0]) && !IsWhiteSpace(r[|r| - 1])
    ensures Trim(s) == r
  {
    var t := Trim(s);
    var b: nat :| Trims(s, t, b);
    // Each piece starts and ends inside the other, so the two coincide.
    assert |t| > 0 ==> t[0] == s[b] && t[|t| - 1] == s[b + |t| - 1];
    assert |r| > 0 ==> r[0] == s[a] && r[|r| - 1] == s[a + |r| - 1];
    assert |t| > 0 ==> a <= b < a + |r| && b + |t| <= a + |r|;
    assert |r| > 0 ==> b <= a < b + |t| && a + |r| <= b + |t|;
  }

  /** `s.slice(0, n)`: the first `n` characters, or all of `s` when it is shorter. */
  function Prefix(s: string, n: nat): (r: string)
    ensures r <= s
    ensures |s| <= n ==> r == s
    ensures |s| >= n ==> |r| == n
  {
    if |s| <= n then s else s[..n]
  }

  function LowerChar(c: char): char {
    if 'A' <= c <= 'Z' then (c as int + 32) as char else c
  }

  function UpperChar(c: char): char {
    if 'a' <= c <= 'z' then (c as int - 32) as char else c
  }

  /** `s.toLowerCase()` on ASCII: upper-case letters become lower-case, everything else stays. */
  function ToLower(s: string): (r: string)
    ensures |r| == |s|
    ensures forall i :: 0 <= i < |s| ==>
              && !('A' <= r[i] <= 'Z')
              && (r[i] == s[i] || ('A' <= s[i] <= 'Z' && r[i] as int == s[i] as int + 32))
  {
    seq(|s|, i requires 0 <= i < |s| => LowerChar(s[i]))
  }

  /** `s.toUpperCase()` on ASCII: lower-case letters become upper-case, everything else stays. */
  function ToUpper(s: string): (r: string)
    ensures |r| == |s|
    ensures forall i :: 0 <= i < |s| ==>
              && !('a' <= r[i] <= 'z')
              && (r[i] == s[i] || ('a' <= s[i] <= 'z' && r[i] as int == s[i] as int - 32))
  {
    seq(|s|, i requires 0 <= i < |s| => UpperChar(s[i]))
  }
}

=== FILE: wrappers.dfy ===
/** `Option` and `Result`, used throughout the model. */
module Wrappers {

  /** A value that may be absent (JavaScript's `null` / `undefined`). */
  datatype Option<+T> = None | Some(value: T)

  /** The outcome of a computation that may throw. */
  datatype Result<+T, +E> = Success(value: T) | Failure(error: E)
}
